=== FILE: README.md ===
# Storefront cart and catalog core, in Dafny

A model of the business logic of a small Django storefront. It covers:

- the shopping cart (`Cart`, `CartItem`): add, update, remove and clear, the item count and price totals, and the stock clamp applied on every item save;
- the product rules (`Product`, `ProductImage`): the discounted price, the stock test, the slug default, the "one primary gallery image" rule and the image priority;
- the catalog queries of the store views: filters, sort keys, related products and search suggestions;
- the search form's checks;
- the cart request handlers and the cart summary shown on every page.

Everything is a pure function over immutable values:

- a product is a record;
- a cart is the sequence of its item rows, newest first;
- the stored state is a map from user to cart plus a map from product key to product.

The cart modules see the product table as that map, keyed by primary key; the catalog queries see it as a sequence of product rows in table order. Both stand for the same table. Nothing in the model links the two, and nothing requires the map to hold each product under its own `id`; no contract depends on that.

Prices are `Decimal` values and are modelled as `real`. At the field sizes used (at most 10 digits, 2 of them decimal), a discounted price has at most 14 significant digits. That is well within `Decimal`'s default 28-digit precision, so exact reals lose nothing.

| module | file | source |
|---|---|---|
| `Wrappers` | wrappers.dfy | option and result types |
| `Text` | text.dfy | case-insensitive substring test and name order |
| `Products` | products.dfy | store/models.py, products |
| `ProductImages` | product_images.dfy | store/models.py, gallery images |
| `CartModel` | cart_model.dfy | cart/models.py |
| `Ordering` | ordering.dfy | sort keys of store/views.py |
| `Catalog` | catalog.dfy | store/views.py |
| `SearchForm` | search_form.dfy | store/forms.py |
| `CartViews` | cart_views.dfy | cart/views.py |
| `CartContext` | cart_context.dfy | cart/context_processors.py |

Decisions a reader should know:

- **Clamp-and-refuse on save.** `CartItem.save` lowers a quantity above stock to the stock. The quantity column is a `PositiveIntegerField`, so the database also refuses a negative value. The handlers' stock gate checks only the upper bound, so a negative posted quantity reaches the save. The model represents that as the `ServerError` outcome.
- **Quantity can be 0.** One might expect every cart row to hold at least one unit. A save guarantees only `0 <= quantity <= stock`. Four paths store a zero row:
  - a product with stock 0 clamps every save to 0 (`OutOfStockAddKeepsZeroRow`);
  - the update handler stores 0 without deleting the row (`UpdateToZeroKeepsRow`);
  - the add handler, posted `quantity=0` for a product the cart lacks, creates a row holding 0, even when the product is in stock;
  - the add handler, posted `-h` for a product held `h` times, leaves its row at 0.

  The last two follow from `AddItemSpec` and `AddToCartOutcome`: an add of an active product that passes the stock gate succeeds whenever `held + q >= 0`, and stores `min(held + q, stock)`.
- **Stored rows can exceed the stock.** `quantity <= stock` holds at the moment a row is saved. Nothing re-clamps existing rows when a product's stock is lowered, for example in the admin. The model separates two properties:
  - `CartModel.Stored`: what the database guarantees of every stored state, namely one row per product per cart, rows that refer to catalog products, and issued keys. The handlers and the cart summary require only this.
  - `CartModel.Consistent`: `Stored` plus `quantity <= stock` for every row. The operations preserve it, but a stock edit can break it (`StockEditKeepsStoredOnly`).
- **Stock excess is refused before it is clamped.** One might expect a requested quantity above stock to be silently clamped. The handlers refuse it (`Rejected`). The clamp only takes effect when an accepted add pushes an existing row past the stock, or when the row already held more than a since-lowered stock.
- **Unknown product or item gives not-found.** An unknown or inactive product, or an item outside the user's cart, raises `Http404` in the code. The handlers' `except` clauses do not catch it, so the result is a not-found response, not the "Invalid product or quantity" message. The model gives `NotFound` and leaves the state unchanged.
- **Check order matters.** `add_to_cart` parses the quantity before it looks up the product, so a malformed quantity gives `Invalid` even for an unknown product. `update_cart_item` looks up the item first.
- **Ties are left open.** The database does not fix the order of ties in a sort. The model sorts by insertion and promises only sortedness and a permutation. For gallery `.first()`, ties go to the row stored earliest.
- **Text matching assumes the SQLite backend.** The settings choose the database, and they are not part of this model. Assuming SQLite, `icontains` folds ASCII case only, as SQLite's LIKE does, and `order_by('name')` is code-point lexicographic order. The model follows that assumption.
- **Price bounds differ between view and form.** The list view's price parameters are strings, so the string "0" is a real bound. The form's cleaned bounds are decimals, and there a bound of 0 is falsy and disables the min-above-max comparison.

## Model

| member | source | states |
|---|---|---|
| `Products.DiscountedPrice` | store/models.py:56-61 | a discount that is not positive leaves the price unchanged; a positive one takes off exactly `discount` percent; under the validators (store/models.py:32-38) the result lies between 0 and the price, and a 100 % discount gives 0 |
| `Products.SaveSlug` | store/models.py:125-130 | the save changes nothing but the slug; a non-empty slug is kept; an empty one becomes `slugify(name)` |
| `Products.SaveSlugIdempotent` | store/models.py:125-130 | saving a product twice yields the same row as saving it once |
| `Products.IsInStock` | store/models.py:120-123 | `is_in_stock`; related to the cart's clamp by `CartModel.InStockIffOneUnitFits` |
| `CartModel.InStockIffOneUnitFits` | store/models.py:120-123 | a product is in stock exactly when one unit survives the cart's save clamp; an out-of-stock product can only be held with quantity 0 |
| `ProductImages.SaveImageKeepsAtMostOnePrimary` | store/models.py:147-151 | every image save keeps "at most one primary image per product" |
| `ProductImages.SaveImageSolePrimary` | store/models.py:147-151 | the saved row is stored, in place of the row with its key or as one new row; saving a primary image leaves it the only primary image of its product |
| `ProductImages.SaveImage` | store/models.py:147-151 | `ProductImage.save`; specified by the three lemmas below |
| `ProductImages.SaveImageLeavesOthers` | store/models.py:147-151 | a save changes no row of another product except the one it writes; a primary save changes the product's other rows only by unflagging them; a non-primary save changes no row but its own |
| `ProductImages.ClearPrimaryKeepsAtMostOnePrimary` | store/models.py:150 | the bulk unflagging leaves no primary image of the product and keeps the invariant for all others |
| `ProductImages.First` | store/models.py:142 | `.first()` returns a row of the list that no row precedes under "primary first, then oldest", and returns nothing only for an empty list |
| `ProductImages.PrimaryImageFile` | store/models.py:74-104 | a returned file exists on storage; the product's own existing image always wins; any other returned file belongs to one of the product's gallery images |
| `ProductImages.PrimaryImageFileWithPrimary` | store/models.py:88-100 | with a primary gallery image and no usable own image, the result is the primary's file if it exists and otherwise nothing: the third candidate is that same primary again, so other gallery images are never used |
| `ProductImages.PrimaryImageFileWithoutPrimary` | store/models.py:96-104 | with no primary gallery image and no usable own image, the result comes from an oldest gallery image; there is none only for an empty gallery or when an oldest image lacks its file; so a non-empty gallery whose files all exist always yields one |
| `CartModel.SaveQuantity` | cart/models.py:87-91 | a saved quantity never exceeds the stock; a quantity within stock is stored unchanged; a larger one becomes the stock; the database refuses a negative one (cart/models.py:71) |
| `CartModel.AddItem` | cart/models.py:28-38 | `add_item` with the clamping save of its row; specified by `AddItemSpec` |
| `CartModel.AddItemSpec` | cart/models.py:28-38 | the product's quantity becomes `min(held + q, stock)`, where `held` is 0 for a new product; a new product gets one new row at the front with a fresh key; the add fails exactly when `held + q` is negative; no second row appears for the product; every other row is kept |
| `CartModel.AddItemInPlace` | cart/models.py:35-37 | adding to a product the cart already holds updates its row in place: the row keeps its primary key and its position, and no other row changes |
| `CartModel.RemoveItem` | cart/models.py:40-47 | `remove_item`; specified by `RemoveItemSpec` |
| `CartModel.RemoveItemSpec` | cart/models.py:40-47 | reports true exactly when the product had a row, and then deletes that row (see `RemoveItemFrame`); otherwise it returns false and changes nothing |
| `CartModel.RemoveItemFrame` | cart/models.py:40-47 | the removal deletes only the product's row: every remaining row is an unchanged old row, and every row of another product remains |
| `CartModel.UpdateItemQuantity` | cart/models.py:49-60 | `update_item_quantity`; specified by `UpdateItemQuantitySpec` |
| `CartModel.UpdateItemQuantitySpec` | cart/models.py:49-60 | for a present product, `q <= 0` deletes its row and `q > 0` sets its quantity to `min(q, stock)` (row by row: `UpdateItemQuantityFrame`), both reporting true; an absent product gives false and no change; products stay unique |
| `CartModel.UpdateItemQuantityFrame` | cart/models.py:49-60 | a deletion removes only the product's row, leaving every other row as it was; a positive quantity is written in place, every row keeping its primary key and position and no other row changing |
| `CartModel.Clear` | cart/models.py:62-64 | the cleared cart holds no product |
| `CartModel.ClearZeroesTotals` | cart/models.py:62-64 | after clearing, the item count and the total price are both 0 |
| `CartModel.DeleteAtKeepsUnique` | cart/models.py:76 | deleting a row keeps at most one row per product |
| `CartModel.TotalItems` | cart/models.py:18-21 | the sum of the rows' quantities; specified by `TotalItemsZeroIff` and `TotalsDependOnlyOnQuantities` |
| `CartModel.LineTotal` | cart/models.py:82-85 | a row's discounted price times its quantity; non-negative under the validators (`TotalPriceNonNegative`) |
| `CartModel.TotalPrice` | cart/models.py:23-26 | the sum of the rows' line totals; specified by `TotalsDependOnlyOnQuantities`, `TotalPriceNonNegative` and `ClearZeroesTotals` |
| `CartModel.TotalItemsZeroIff` | cart/models.py:18-21 | the item count is 0 exactly when every row holds quantity 0, so an empty cart counts 0 |
| `CartModel.TotalsDependOnlyOnQuantities` | cart/models.py:18-26 | two carts with the same quantities of the same products have equal item counts and equal prices, whatever their rows' order and keys |
| `CartModel.TotalPriceNonNegative` | cart/models.py:82-85 | under the price validators, no cart's total price is negative |
| `CartModel.OutOfStockAddKeepsZeroRow` | cart/models.py:87-91 | adding a product with stock 0 succeeds and leaves it in the cart with quantity 0, and the item count does not grow |
| `CartModel.CartOperationsKeepStored` | cart/models.py:28-76 | add, remove, update and clear keep rows unique per product, referring to catalog products and keyed below the next fresh key, whatever the rows' quantities |
| `CartModel.StockEditKeepsStoredOnly` | cart/models.py:87-91 | the clamp runs only on save: changing a product's stock keeps every stored state stored, but a row of 3 units under a stock lowered to 2 is stored and not consistent |
| `CartModel.CartOperationsKeepConsistent` | cart/models.py:67-91 | add, remove, update and clear keep rows unique per product, referring to catalog products, within stock, and keyed below the next fresh key |
| `Ordering.SortKeyOf` | store/views.py:53-63 | each of `price_low`, `price_high`, `name` and `discount` selects its own order, and every other value selects newest first |
| `Ordering.Sort` | store/views.py:54-63 | the result is ordered by the key and is a permutation of the input |
| `Ordering.SortOrderForParam` | store/views.py:53-63 | the list order is non-decreasing price, non-increasing price, ascending name or non-increasing discount for the four keys, and newest first for any other value |
| `Text.ContainsIffOccurs` | store/views.py:33-37 | the substring scan used for `icontains` finds the term exactly when it occurs at some position |
| `Catalog.SearchStep` | store/views.py:31-37 | with a non-empty search term, exactly the products whose name, description or category name contains it, ignoring case, are kept |
| `Catalog.CategoryStep` | store/views.py:40-42 | with a non-empty category slug, exactly the products of that category are kept |
| `Catalog.MinPriceStep` | store/views.py:47-48 | a supplied minimum keeps exactly the products priced at or above it |
| `Catalog.MaxPriceStep` | store/views.py:49-50 | a supplied maximum keeps exactly the products priced at or below it |
| `Catalog.FilterProducts` | store/views.py:28-50 | the view's successive filters; specified by `FilterStepsAreConjunction` |
| `Catalog.ProductList` | store/views.py:26-63 | `product_list` before pagination; specified by the four lemmas below |
| `Catalog.FilterStepsAreConjunction` | store/views.py:28-50 | the view's successive narrowing of its query set (active, then search, category, minimum and maximum price, each skipped when its parameter is absent or empty) selects exactly the rows of the single conjunctive filter, in the same order |
| `Catalog.ProductListSound` | store/views.py:28-50 | every listed product is a stored, active product that satisfies each clause given: the search term in its name, description or category name, the category slug, and the inclusive price bounds |
| `Catalog.ProductListComplete` | store/views.py:28-50 | every stored product that satisfies all the given clauses is listed, so the successive filters act as one conjunction |
| `Catalog.ProductListOrder` | store/views.py:28-63 | the list holds each row of the view's filtered query set exactly as often as it is stored, and no other; it is in the order of the `sort` parameter, newest first when that is absent |
| `Catalog.ProductListUnfiltered` | store/views.py:28-50 | with no search, category or price filter, the list holds exactly the active products |
| `Catalog.CategoryDetail` | store/views.py:104-120 | an unknown slug gives not-found; otherwise the page holds exactly the category's active products, each as often as it is stored (a permutation of `CategoryProducts`), in the order of the `sort` parameter |
| `Catalog.ProductDetail` | store/views.py:84-101 | `product_detail`; specified by `ProductDetailSpec`, which ties its related list to `Related`, and `RelatedAreNewest` |
| `Catalog.ProductDetailSpec` | store/views.py:84-95 | the page exists exactly when an active product has the slug; its related products are `Related` of that product: at most four, newest first, active, of the same category and never the product itself, and all candidates appear when there are at most four |
| `Catalog.RelatedAreNewest` | store/views.py:87-95 | with the default newest-first ordering (store/models.py:48), `Related`, the list `ProductDetail` shows for the product it finds, holds as many related products as there are candidates, up to four, and none older than a candidate left out |
| `Catalog.SearchSuggestions` | store/views.py:136-146 | `product_search_api`; specified by the lemmas below |
| `Catalog.SuggestionsBounded` | store/views.py:138-146 | a query shorter than two characters gives nothing; a longer one gives `Suggested` (see `SuggestionsAreNewest`): at most five suggestions, newest first |
| `Catalog.SuggestionsMatch` | store/views.py:142-145 | every suggestion is a stored, active product whose name or description contains the query, ignoring case |
| `Catalog.SuggestionsComplete` | store/views.py:142-146 | when at most five products match a long enough query, every one of them is suggested |
| `Catalog.SuggestionsAreNewest` | store/views.py:142-146 | `Suggested`, what `SearchSuggestions` answers for a query of at least two characters, holds as many suggestions as there are matches, up to five, and none older than a match left out |
| `Catalog.SuggestionsIgnoreCategoryName` | store/views.py:142-145 | a product that matches only through its category name is never suggested |
| `SearchForm.Clean` | store/forms.py:55-63 | the form fails, with the min-above-max error, exactly when both bounds are present, non-zero and in the wrong order; otherwise it returns the data unchanged |
| `SearchForm.CleanAccepts` | store/forms.py:57-60 | a missing bound or an ordered range always passes, and a maximum of 0 disables the min-above-max comparison |
| `SearchForm.CleanSortBy` | store/forms.py:40-53 | the sort field accepts exactly the empty value and the five choices, unchanged |
| `SearchForm.SortChoicesMatchListing` | store/forms.py:40-49 | the five choices select five different list orders, and the initial choice is newest first |
| `CartViews.ParseQuantity` | cart/views.py:30 | a missing quantity field reads as 1; a posted integer `n` reads as `n`, negative ones included; only a non-integer field fails |
| `CartViews.AddToCart` | cart/views.py:26-60 | the add handler as a state transition; specified by `AddToCartOutcome`, `AddToCartClamps` and `AddToCartKeepsStored` |
| `CartViews.AddToCartOutcome` | cart/views.py:28-40 | the outcome in both directions: invalid exactly for a non-integer quantity; otherwise not-found exactly for an unknown or inactive product; otherwise rejected exactly above stock; otherwise a refused save exactly when `held + q` is negative (cart/models.py:71); success in every remaining case; each refusal before the save leaves the state unchanged, and a refused save changes nothing except that the user's cart now exists, empty if it is new |
| `CartViews.AddToCartClamps` | cart/views.py:35-40 | on any stored state, an accepted add asked for no more than the stock, yet stores `min(held + q, stock)`; it leaves other users' carts and the catalog unchanged |
| `CartViews.AddToCartDefaultsToOne` | cart/views.py:30 | posting no quantity behaves exactly like posting 1 |
| `CartViews.AddToCartKeepsStored` | cart/views.py:26-54 | the add handler keeps every stored state stored, also when the database refuses the row after the cart was created |
| `CartViews.AddToCartKeepsConsistent` | cart/views.py:26-54 | the add handler keeps every cart within stock and consistent, also when the database refuses the row after the cart was created |
| `CartViews.UpdateCartItem` | cart/views.py:65-97 | the update handler as a state transition; specified by `UpdateCartItemOutcome` and `UpdateCartItemSpec` |
| `CartViews.UpdateCartItemOutcome` | cart/views.py:68-77 | the outcome in both directions: not-found exactly for an item outside the user's own cart; invalid exactly for a non-integer quantity; rejected exactly above the stock; a refused save exactly below 0 (cart/models.py:71); success exactly for every quantity from 0 to the stock |
| `CartViews.UpdateCartItemSpec` | cart/views.py:65-77 | on any stored state, any outcome but success changes nothing; other users' carts, the catalog and the next item key never change; success stores the requested quantity exactly, which lies between 0 and the stock, in the item's row in place: every row keeps its primary key and position, and no other row changes; the state stays stored, and consistent if it was |
| `CartViews.UpdateToZeroKeepsRow` | cart/views.py:76-77 | setting an item to 0 keeps its row with quantity 0, while `Cart.update_item_quantity` would delete it |
| `CartViews.RemoveFromCart` | cart/views.py:102-126 | the remove handler as a state transition; specified by `RemoveFromCartSpec` |
| `CartViews.RemoveFromCartSpec` | cart/views.py:102-107 | on any stored state, only an item in the user's own cart is deleted, and exactly its product leaves the cart; every remaining row is an unchanged old row, and every row of another product remains; otherwise not-found with no change; other users' carts, the catalog and the next item key never change; the state stays stored, and consistent if it was |
| `CartViews.ClearCart` | cart/views.py:131-135 | a user without a cart gets not-found and no change; otherwise their cart is emptied to a count of 0; other carts, the catalog and the next item key stay as they were |
| `CartViews.ClearCartKeepsConsistent` | cart/views.py:131-135 | clearing keeps the state stored, and consistent if it was |
| `CartViews.CartCount` | cart/views.py:155-166 | a logged-in user with a cart gets the cart's item count; the count is 0 exactly for an anonymous user, a user without a cart, or a cart whose rows all hold 0 |
| `CartContext.CartSummary` | cart/context_processors.py:4-24 | on any stored state, anonymous users and users without a cart get no cart, count 0 and total 0; others get their own cart |
| `CartContext.SummaryMatchesCart` | cart/context_processors.py:8-12 | the summary's count and total are the cart's item count and total price, and the count equals what the count endpoint reports |
| `CartContext.SummaryDependsOnQuantities` | cart/context_processors.py:8-12 | two carts holding the same quantities of the same products show the same count and total |
| `CartContext.ClearedCartSummary` | cart/context_processors.py:8-12 | after the clear handler, the user's summary shows an empty cart, count 0 and total 0 |

## Left out

- Database backends other than SQLite: PostgreSQL and MySQL fold Unicode case in `icontains` and sort names by the database collation. The model fixes ASCII folding and code-point order.
- Pagination: the list and category pages are cut into pages of 12 by Django's `Paginator.get_page`. Its clamping of page numbers is library behaviour that is not shown here. `Catalog.PageSize` records the size.
- HTTP: responses, redirects, flash messages, templates, the AJAX-versus-redirect choice, and the `float(...)` conversions in JSON responses. These are presentation only, and the outcome tag stands in for them.
- Login: `@login_required` redirects anonymous users before any cart handler runs, so those handlers take a logged-in user.
- Storage: image existence, image URLs, `has_image`'s fallback when the storage check raises, `has_primary_image` and `primary_image_url`. File existence is the parameter `onStorage`.
- `slugify` is a library function and is a parameter. The unique constraint on slugs, which rejects a duplicate slug on save, is not modelled.
- The `max_digits` and `decimal_places` limits on prices are not modelled. Prices are unbounded reals.
- The validators are not enforced on save. They are the predicate `Products.PricingValid` and are assumed only where a lemma says so.
- Unparsable request values: `min_price` or `max_price` values that do not parse as decimals raise an error in the query layer, and so does a `product_id` that is not a number. The model takes these values already parsed, and a missing `product_id` as `None`.
- Concurrent requests: these are not modelled, and each handler is treated as atomic. Nothing in the code serialises requests, and it uses no transaction. Two concurrent adds of the same product can lose an update, because `add_item` reads the row and then writes it.
- Key allocation: the key sequence is abstract, a counter advanced when a row is inserted.
- `cart_view` only renders the cart. It creates an empty cart as a side effect, the same creation `AddToCart` models.
- Other views and helpers: the home page's featured list, the categories context processor, the admin configuration, the seed-data command, the setup script and the URL routing lie outside the cart and catalog core.
- Timestamps: `created_at`, `added_at` and `updated_at` serve only as ordering keys. Row order stands in for `added_at`.

=== FILE: cart_context.dfy ===
/** The `cart` context processor of cart/context_processors.py: the cart
    summary shown on every page. */
module CartContext {
  import opened Wrappers
  import opened CartModel
  import opened CartViews

  datatype Summary = Summary(cart: Option<Items>, count: nat, total: real)

  /** A logged-in user with a cart sees its item count and price; anyone
      else sees no cart, a count of 0 and a total of 0. */
  function CartSummary(shop: Shop, user: Option<UserId>): (s: Summary)
    requires Stored(shop)
    ensures s.cart.None? <==> user.None? || user.value !in shop.carts
    ensures s.cart.None? ==> s.count == 0 && s.total == 0.0
    ensures s.cart.Some? ==> s.cart.value == shop.carts[user.value]
  {
    if user.Some? && user.value in shop.carts then
      var items := shop.carts[user.value];
      assert CartStored(items, shop.catalog, shop.nextItemId);
      Summary(Some(items), TotalItems(items), TotalPrice(items, shop.catalog))
    else
      Summary(None, 0, 0.0)
  }

  /** The summary's count and total are the cart's `total_items` and
      `total_price`, and the count is what the `cart_count` endpoint
      reports, for every user including anonymous ones. */
  lemma SummaryMatchesCart(shop: Shop, user: Option<UserId>)
    requires Stored(shop)
    ensures var s := CartSummary(shop, user);
      && s.count == CartCount(shop, user)
      && (s.cart.Some? ==>
            && References(s.cart.value, shop.catalog)
            && s.count == TotalItems(s.cart.value)
            && s.total == TotalPrice(s.cart.value, shop.catalog))
  {
    if user.Some? && user.value in shop.carts {
      assert CartStored(shop.carts[user.value], shop.catalog, shop.nextItemId);
    }
  }

  /** A cart holding the same quantities of the same products shows the
      same summary, whatever its rows' order and keys; an emptied cart
      shows 0 and 0. */
  lemma SummaryDependsOnQuantities(shop: Shop, shop': Shop, user: UserId)
    requires Stored(shop) && Stored(shop')
    requires shop.catalog == shop'.catalog
    requires user in shop.carts && user in shop'.carts
    requires Quantities(shop.carts[user]) == Quantities(shop'.carts[user])
    ensures CartSummary(shop, Some(user)).count == CartSummary(shop', Some(user)).count
    ensures CartSummary(shop, Some(user)).total == CartSummary(shop', Some(user)).total
  {
    assert CartStored(shop.carts[user], shop.catalog, shop.nextItemId);
    assert CartStored(shop'.carts[user], shop'.catalog, shop'.nextItemId);
    TotalsDependOnlyOnQuantities(shop.carts[user], shop'.carts[user], shop.catalog);
  }

  lemma ClearedCartSummary(shop: Shop, user: UserId)
    requires Stored(shop)
    requires user in shop.carts
    ensures Stored(ClearCart(shop, user).shop)
    ensures var s := CartSummary(ClearCart(shop, user).shop, Some(user));
      s.cart == Some([]) && s.count == 0 && s.total == 0.0
  {
    ClearCartKeepsConsistent(shop, user);
  }

}

=== FILE: cart_model.dfy ===
/** The cart of cart/models.py. A cart is the list of its item rows, newest
    first (the `-added_at` ordering); the `unique_together` constraint on
    (cart, product) becomes the `UniqueProducts` invariant, and
    `Quantities` is the product-to-quantity view in which the operations are
    specified. Every item save clamps the quantity to the product's stock;
    the quantity column is a `PositiveIntegerField`, so the database refuses
    a negative value. */
module CartModel {
  import opened Wrappers
  import opened Sequences
  import opened Products

  type UserId = nat

  datatype CartItem = CartItem(id: nat, product: ProductId, quantity: nat)

  type Items = seq<CartItem>

  /** The database's non-negativity check on the quantity column. */
  datatype SaveError = NegativeQuantity

  function Min(a: int, b: int): int
  {
    if a <= b then a else b
  }

  /** `CartItem.save`: a quantity above stock is lowered to the stock; a
      quantity within stock is stored unchanged; a negative one is refused. */
  function SaveQuantity(q: int, stock: nat): (r: Result<nat, SaveError>)
    ensures r.Success? <==> q >= 0
    ensures r.Success? ==> r.value <= stock
    ensures r.Success? && q <= stock ==> r.value == q
    ensures r.Success? && q > stock ==> r.value == stock
  {
    var clamped := if q > stock then stock else q;
    if clamped < 0 then Failure(NegativeQuantity) else Success(clamped)
  }

  /** A product is in stock exactly when one unit survives the save clamp;
      an out-of-stock product can only ever be held with quantity 0. */
  lemma InStockIffOneUnitFits(p: Product)
    ensures IsInStock(p) <==> SaveQuantity(1, p.stock) == Success(1)
    ensures !IsInStock(p) ==> forall q: int :: q >= 0 ==> SaveQuantity(q, p.stock) == Success(0)
  {
  }

  /** At most one row per product (`unique_together = ['cart', 'product']`). */
  predicate UniqueProducts(items: Items)
  {
    forall i, j :: 0 <= i < j < |items| ==> items[i].product != items[j].product
  }

  /** Position of the row holding `p`, if any. */
  function IndexOf(items: Items, p: ProductId): (r: Option<nat>)
    ensures r.Some? ==> r.value < |items| && items[r.value].product == p
    ensures r.Some? ==> forall j :: 0 <= j < r.value ==> items[j].product != p
    ensures r.None? <==> forall i :: 0 <= i < |items| ==> items[i].product != p
  {
    IndexWhere(items, (it: CartItem) => it.product == p)
  }

  /** The cart as a map from product to quantity. */
  function Quantities(items: Items): map<ProductId, nat>
  {
    if |items| == 0 then map[]
    else Quantities(items[1..])[items[0].product := items[0].quantity]
  }

  lemma EmptyQuantities(items: Items)
    ensures Quantities(items) == map[] <==> |items| == 0
  {
    if |items| > 0 {
      assert items[0].product in Quantities(items);
    }
  }

  /** Quantity held of `p`, 0 when the cart has no row for it. */
  function Held(items: Items, p: ProductId): nat
  {
    if p in Quantities(items) then Quantities(items)[p] else 0
  }

  /** The map view reads each product's quantity from its row. */
  lemma {:induction false} HeldIsRowQuantity(items: Items, p: ProductId)
    ensures p in Quantities(items) <==> IndexOf(items, p).Some?
    ensures IndexOf(items, p).Some? ==> Held(items, p) == items[IndexOf(items, p).value].quantity
  {
    if |items| > 0 && items[0].product != p {
      HeldIsRowQuantity(items[1..], p);
    }
  }

  /** Rewriting one row's quantity changes only that product in the map view. */
  lemma {:induction false} QuantitiesSetAt(items: Items, i: nat, v: nat)
    requires UniqueProducts(items)
    requires i < |items|
    ensures Quantities(items[i := items[i].(quantity := v)]) == Quantities(items)[items[i].product := v]
  {
    var r := items[i := items[i].(quantity := v)];
    if i == 0 {
      assert r[1..] == items[1..];
    } else {
      assert r[1..] == items[1..][i - 1 := items[i].(quantity := v)];
      QuantitiesSetAt(items[1..], i - 1, v);
    }
  }

  /** The row deleted at `i`, as a sequence. */
  function DeleteAt(items: Items, i: nat): (r: Items)
    requires i < |items|
    ensures |r| == |items| - 1
    ensures forall j :: 0 <= j < |r| ==> r[j] == (if j < i then items[j] else items[j + 1])
  {
    items[..i] + items[i + 1..]
  }

  /** `r` is `items` with only the row of `p` rewritten in place: the same
      rows in the same order, each keeping its primary key and product, and
      every row of another product unchanged. */
  predicate RewritesOnly(items: Items, r: Items, p: ProductId)
  {
    && |r| == |items|
    && forall j :: 0 <= j < |r| ==>
         && r[j].id == items[j].id && r[j].product == items[j].product
         && (r[j].product != p ==> r[j] == items[j])
  }

  /** `r` is `items` with only the rows of `p` deleted: every remaining row
      is an unchanged row of another product, and every such row remains. */
  predicate DeletesOnly(items: Items, r: Items, p: ProductId)
  {
    && (forall it :: it in r ==> it in items && it.product != p)
    && (forall it :: it in items && it.product != p ==> it in r)
  }

  /** Deleting the row at `i` deletes exactly the rows of its product. */
  lemma DeleteAtFrame(items: Items, i: nat)
    requires UniqueProducts(items)
    requires i < |items|
    ensures DeletesOnly(items, DeleteAt(items, i), items[i].product)
  {
    var r := DeleteAt(items, i);
    forall it | it in r
      ensures it in items && it.product != items[i].product
    {
      var j :| 0 <= j < |r| && r[j] == it;
      var j' := if j < i then j else j + 1;
      assert r[j] == items[j'];
    }
    forall it | it in items && it.product != items[i].product
      ensures it in r
    {
      var k :| 0 <= k < |items| && items[k] == it;
      var k' := if k < i then k else k - 1;
      assert r[k'] == it;
    }
  }

  lemma DeleteAtKeepsUnique(items: Items, i: nat)
    requires UniqueProducts(items)
    requires i < |items|
    ensures UniqueProducts(DeleteAt(items, i))
  {
    var r := DeleteAt(items, i);
    forall a, b | 0 <= a < b < |r|
      ensures r[a].product != r[b].product
    {
      var a' := if a < i then a else a + 1;
      var b' := if b < i then b else b + 1;
      assert r[a] == items[a'] && r[b] == items[b'];
    }
  }

  /** Under uniqueness, the first row's product has no row in the rest. */
  lemma HeadNotInTail(items: Items)
    requires UniqueProducts(items)
    requires |items| > 0
    ensures items[0].product !in Quantities(items[1..])
  {
    HeldIsRowQuantity(items[1..], items[0].product);
  }

  /** Dropping the first row removes its product from the map view and
      keeps the rest unique. */
  lemma TailQuantities(items: Items)
    requires UniqueProducts(items)
    requires |items| > 0
    ensures UniqueProducts(items[1..])
    ensures Quantities(items[1..]) == Quantities(items) - {items[0].product}
  {
    HeadNotInTail(items);
  }

  /** Deleting one row removes exactly that product from the map view. */
  lemma {:induction false} QuantitiesDeleteAt(items: Items, i: nat)
    requires UniqueProducts(items)
    requires i < |items|
    ensures Quantities(DeleteAt(items, i)) == Quantities(items) - {items[i].product}
  {
    var r := DeleteAt(items, i);
    HeadNotInTail(items);
    if i == 0 {
      assert r == items[1..];
    } else {
      var rest := DeleteAt(items[1..], i - 1);
      assert r == [items[0]] + rest;
      assert r[1..] == rest;
      QuantitiesDeleteAt(items[1..], i - 1);
      assert items[0].product != items[i].product;
      calc {
        Quantities(r);
        Quantities(rest)[items[0].product := items[0].quantity];
        (Quantities(items[1..]) - {items[i].product})[items[0].product := items[0].quantity];
        Quantities(items) - {items[i].product};
      }
    }
  }

  /** `Cart.add_item`: a product already in the cart has its row's quantity
      raised by `q`; otherwise a new row (with a fresh primary key) is
      created holding `q`. Either way the row is saved, so the quantity is
      clamped to `stock`. */
  function AddItem(items: Items, p: ProductId, q: int, stock: nat, freshId: nat): Result<Items, SaveError>
  {
    match IndexOf(items, p)
    case None =>
      (match SaveQuantity(q, stock)
       case Failure(e) => Failure(e)
       case Success(v) => Success([CartItem(freshId, p, v)] + items))
    case Some(i) =>
      (match SaveQuantity(items[i].quantity + q, stock)
       case Failure(e) => Failure(e)
       case Success(v) => Success(items[i := items[i].(quantity := v)]))
  }

  /** Putting a row for a product the cart lacks in front keeps the rows
      unique, adds that product to the map view and keeps every old row. */
  lemma PrependRow(items: Items, row: CartItem)
    requires UniqueProducts(items)
    requires forall i :: 0 <= i < |items| ==> items[i].product != row.product
    ensures UniqueProducts([row] + items)
    ensures Quantities([row] + items) == Quantities(items)[row.product := row.quantity]
    ensures forall it :: it in items ==> it in [row] + items
  {
    assert ([row] + items)[1..] == items;
  }

  /** Rewriting one row's quantity keeps the rows unique and keeps every row
      of another product. */
  lemma SetRowQuantity(items: Items, i: nat, v: nat)
    requires UniqueProducts(items)
    requires i < |items|
    ensures UniqueProducts(items[i := items[i].(quantity := v)])
    ensures forall it :: it in items && it.product != items[i].product ==> it in items[i := items[i].(quantity := v)]
    ensures RewritesOnly(items, items[i := items[i].(quantity := v)], items[i].product)
  {
    var r := items[i := items[i].(quantity := v)];
    forall it | it in items && it.product != items[i].product
      ensures it in r
    {
      var j :| 0 <= j < |items| && items[j] == it;
      assert r[j] == it;
    }
  }

  lemma AddItemSpec(items: Items, p: ProductId, q: int, stock: nat, freshId: nat)
    requires UniqueProducts(items)
    ensures var r := AddItem(items, p, q, stock, freshId);
      && (r.Success? <==> Held(items, p) + q >= 0)
      && (r.Success? ==>
            && UniqueProducts(r.value)
            && Quantities(r.value) == Quantities(items)[p := Min(Held(items, p) + q, stock)]
            && (forall it :: it in items && it.product != p ==> it in r.value)
            && (p !in Quantities(items) ==> r.value == [CartItem(freshId, p, Min(q, stock))] + items))
  {
    HeldIsRowQuantity(items, p);
    match IndexOf(items, p) {
      case None =>
        if q >= 0 {
          PrependRow(items, CartItem(freshId, p, SaveQuantity(q, stock).value));
        }
      case Some(i) =>
        if items[i].quantity + q >= 0 {
          var v := SaveQuantity(items[i].quantity + q, stock).value;
          QuantitiesSetAt(items, i, v);
          SetRowQuantity(items, i, v);
        }
    }
  }

  /** Adding to a product the cart already holds updates its row in place:
      the row keeps its primary key and position, and no other row changes. */
  lemma AddItemInPlace(items: Items, p: ProductId, q: int, stock: nat, freshId: nat)
    requires UniqueProducts(items)
    ensures var r := AddItem(items, p, q, stock, freshId);
      r.Success? && p in Quantities(items) ==> RewritesOnly(items, r.value, p)
  {
    HeldIsRowQuantity(items, p);
    match IndexOf(items, p) {
      case None =>
      case Some(i) =>
        if items[i].quantity + q >= 0 {
          SetRowQuantity(items, i, SaveQuantity(items[i].quantity + q, stock).value);
        }
    }
  }

  /** Result of the operations that look a product up first: whether a row
      was found, and the rows afterwards. */
  datatype Change = Change(found: bool, items: Items)

  /** `Cart.remove_item`. */
  function RemoveItem(items: Items, p: ProductId): Change
  {
    match IndexOf(items, p)
    case None => Change(false, items)
    case Some(i) => Change(true, DeleteAt(items, i))
  }

  lemma RemoveItemSpec(items: Items, p: ProductId)
    requires UniqueProducts(items)
    ensures var c := RemoveItem(items, p);
      && (c.found <==> p in Quantities(items))
      && (!c.found ==> c.items == items)
      && UniqueProducts(c.items)
      && Quantities(c.items) == Quantities(items) - {p}
      && |c.items| == |items| - (if c.found then 1 else 0)
  {
    HeldIsRowQuantity(items, p);
    match IndexOf(items, p) {
      case None =>
        assert Quantities(items) - {p} == Quantities(items);
      case Some(i) =>
        QuantitiesDeleteAt(items, i);
        DeleteAtKeepsUnique(items, i);
    }
  }

  /** Removing deletes the product's row and only it: every remaining row
      is an unchanged old row, and every row of another product remains. */
  lemma RemoveItemFrame(items: Items, p: ProductId)
    requires UniqueProducts(items)
    ensures DeletesOnly(items, RemoveItem(items, p).items, p)
  {
    match IndexOf(items, p) {
      case None =>
      case Some(i) => DeleteAtFrame(items, i);
    }
  }

  /** `Cart.update_item_quantity`: a quantity of 0 or less deletes the row;
      a positive one is stored through the clamping save. */
  function UpdateItemQuantity(items: Items, p: ProductId, q: int, stock: nat): Change
  {
    match IndexOf(items, p)
    case None => Change(false, items)
    case Some(i) =>
      if q <= 0 then Change(true, DeleteAt(items, i))
      else Change(true, items[i := items[i].(quantity := SaveQuantity(q, stock).value)])
  }

  lemma UpdateItemQuantitySpec(items: Items, p: ProductId, q: int, stock: nat)
    requires UniqueProducts(items)
    ensures var c := UpdateItemQuantity(items, p, q, stock);
      && (c.found <==> p in Quantities(items))
      && (!c.found ==> c.items == items)
      && UniqueProducts(c.items)
      && (c.found && q <= 0 ==> Quantities(c.items) == Quantities(items) - {p})
      && (c.found && q > 0 ==> Quantities(c.items) == Quantities(items)[p := Min(q, stock)])
  {
    HeldIsRowQuantity(items, p);
    match IndexOf(items, p) {
      case None =>
      case Some(i) =>
        if q <= 0 {
          QuantitiesDeleteAt(items, i);
          DeleteAtKeepsUnique(items, i);
        } else {
          QuantitiesSetAt(items, i, SaveQuantity(q, stock).value);
        }
    }
  }

  /** Row by row: a deletion removes only the product's row, and a positive
      quantity is written in place, every row keeping its primary key and
      no other row changing. */
  lemma UpdateItemQuantityFrame(items: Items, p: ProductId, q: int, stock: nat)
    requires UniqueProducts(items)
    ensures var c := UpdateItemQuantity(items, p, q, stock);
      && (c.found && q <= 0 ==> DeletesOnly(items, c.items, p))
      && (c.found && q > 0 ==> RewritesOnly(items, c.items, p))
  {
    match IndexOf(items, p) {
      case None =>
      case Some(i) =>
        if q <= 0 {
          DeleteAtFrame(items, i);
        } else {
          SetRowQuantity(items, i, SaveQuantity(q, stock).value);
        }
    }
  }

  /** `Cart.clear`. */
  function Clear(items: Items): (r: Items)
    ensures Quantities(r) == map[]
  {
    []
  }

  /** `Cart.total_items`: the sum of the rows' quantities. */
  function TotalItems(items: Items): nat
  {
    if |items| == 0 then 0 else items[0].quantity + TotalItems(items[1..])
  }

  /** The count is 0 exactly when every row holds quantity 0; an empty
      cart counts 0, but so does a cart of zero-quantity rows. */
  lemma {:induction false} TotalItemsZeroIff(items: Items)
    ensures TotalItems(items) == 0 <==> forall i :: 0 <= i < |items| ==> items[i].quantity == 0
  {
    if |items| > 0 {
      TotalItemsZeroIff(items[1..]);
      assert forall i :: 1 <= i < |items| ==> items[i] == items[1..][i - 1];
    }
  }

  /** Every row refers to a product of the catalog (the foreign key). */
  predicate References(items: Items, catalog: map<ProductId, Product>)
  {
    forall i :: 0 <= i < |items| ==> items[i].product in catalog
  }

  /** `CartItem.total_price`. */
  function LineTotal(item: CartItem, product: Product): real
  {
    DiscountedPrice(product) * item.quantity as real
  }

  /** `Cart.total_price`: the sum of the rows' line totals. */
  function TotalPrice(items: Items, catalog: map<ProductId, Product>): real
    requires References(items, catalog)
  {
    if |items| == 0 then 0.0
    else LineTotal(items[0], catalog[items[0].product]) + TotalPrice(items[1..], catalog)
  }

  lemma {:induction false} TotalsDeleteAt(items: Items, i: nat, catalog: map<ProductId, Product>)
    requires i < |items|
    requires References(items, catalog)
    ensures TotalItems(DeleteAt(items, i)) == TotalItems(items) - items[i].quantity
    ensures References(DeleteAt(items, i), catalog)
    ensures TotalPrice(DeleteAt(items, i), catalog)
         == TotalPrice(items, catalog) - LineTotal(items[i], catalog[items[i].product])
  {
    var r := DeleteAt(items, i);
    if i == 0 {
      assert r == items[1..];
    } else {
      assert r[1..] == DeleteAt(items[1..], i - 1);
      TotalsDeleteAt(items[1..], i - 1, catalog);
    }
  }

  /** The totals are a function of the map view alone: two carts holding
      the same quantities of the same products have the same item count and
      the same price, whatever the order and keys of their rows. */
  lemma {:induction false} TotalsDependOnlyOnQuantities(a: Items, b: Items, catalog: map<ProductId, Product>)
    requires UniqueProducts(a) && UniqueProducts(b)
    requires References(a, catalog) && References(b, catalog)
    requires Quantities(a) == Quantities(b)
    ensures TotalItems(a) == TotalItems(b)
    ensures TotalPrice(a, catalog) == TotalPrice(b, catalog)
    decreases |a|
  {
    if |a| > 0 {
      var p := a[0].product;
      assert p in Quantities(b) by {
        assert p in Quantities(a);
      }
      HeldIsRowQuantity(b, p);
      var k := IndexOf(b, p).value;
      assert b[k].quantity == a[0].quantity by {
        assert Held(b, p) == Held(a, p);
      }
      var b' := DeleteAt(b, k);
      QuantitiesDeleteAt(b, k);
      DeleteAtKeepsUnique(b, k);
      TotalsDeleteAt(b, k, catalog);
      TailQuantities(a);
      TotalsDependOnlyOnQuantities(a[1..], b', catalog);
    } else {
      EmptyQuantities(b);
    }
  }

  /** With stock 0 the save clamps to 0, so adding an out-of-stock product
      leaves a row with quantity 0: the code keeps `quantity <= stock`, not
      `quantity >= 1`. */
  lemma OutOfStockAddKeepsZeroRow(items: Items, p: ProductId, q: nat, freshId: nat)
    requires UniqueProducts(items)
    ensures AddItem(items, p, q, 0, freshId).Success?
    ensures var r := AddItem(items, p, q, 0, freshId).value;
      p in Quantities(r) && Quantities(r)[p] == 0 && TotalItems(r) <= TotalItems(items)
  {
    AddItemSpec(items, p, q, 0, freshId);
    var r := AddItem(items, p, q, 0, freshId).value;
    HeldIsRowQuantity(items, p);
    match IndexOf(items, p) {
      case None =>
        assert r == [CartItem(freshId, p, 0)] + items;
        assert r[1..] == items;
      case Some(i) =>
        assert r == items[i := items[i].(quantity := 0)];
        TotalItemsSetAt(items, i, 0);
    }
  }

  lemma {:induction false} TotalItemsSetAt(items: Items, i: nat, v: nat)
    requires i < |items|
    ensures TotalItems(items[i := items[i].(quantity := v)]) == TotalItems(items) - items[i].quantity + v
  {
    var r := items[i := items[i].(quantity := v)];
    if i == 0 {
      assert r[1..] == items[1..];
    } else {
      assert r[1..] == items[1..][i - 1 := items[i].(quantity := v)];
      TotalItemsSetAt(items[1..], i - 1, v);
    }
  }

  /** An empty cart holds no items and costs nothing. */
  lemma ClearZeroesTotals(items: Items, catalog: map<ProductId, Product>)
    ensures References(Clear(items), catalog)
    ensures TotalItems(Clear(items)) == 0 && TotalPrice(Clear(items), catalog) == 0.0
  {
  }

  /** Under the price validators no cart has a negative total. */
  lemma {:induction false} TotalPriceNonNegative(items: Items, catalog: map<ProductId, Product>)
    requires References(items, catalog)
    requires forall id :: id in catalog ==> PricingValid(catalog[id])
    ensures TotalPrice(items, catalog) >= 0.0
  {
    if |items| > 0 {
      TotalPriceNonNegative(items[1..], catalog);
      var p := catalog[items[0].product];
      assert DiscountedPrice(p) >= 0.0;
      assert LineTotal(items[0], p) >= 0.0;
    }
  }

  /** The stored carts, one per user (the `OneToOneField`), and the catalog
      they refer to. `nextItemId` is the next primary key for a cart row. */
  datatype Shop = Shop(carts: map<UserId, Items>, catalog: map<ProductId, Product>, nextItemId: nat)

  /** What the database guarantees of every stored cart, whatever else has
      been edited: one row per product (`unique_together`), rows refer to
      catalog products (the foreign key), and row keys were issued before
      `nextItemId`. */
  predicate CartStored(items: Items, catalog: map<ProductId, Product>, nextItemId: nat)
  {
    && UniqueProducts(items)
    && forall i :: 0 <= i < |items| ==> items[i].product in catalog && items[i].id < nextItemId
  }

  /** What the saves keep true besides: no row holds more than its
      product's stock. Only a save clamps, so lowering a product's stock
      (in the admin) leaves a stored cart that is not consistent. */
  predicate CartConsistent(items: Items, catalog: map<ProductId, Product>, nextItemId: nat)
  {
    && CartStored(items, catalog, nextItemId)
    && forall i :: 0 <= i < |items| ==> items[i].quantity <= catalog[items[i].product].stock
  }

  predicate Stored(shop: Shop)
  {
    forall u :: u in shop.carts ==> CartStored(shop.carts[u], shop.catalog, shop.nextItemId)
  }

  predicate Consistent(shop: Shop)
  {
    forall u :: u in shop.carts ==> CartConsistent(shop.carts[u], shop.catalog, shop.nextItemId)
  }

  /** Editing a product's stock keeps every stored cart stored, but it can
      leave a row above the new stock: a cart holding 3 units is no longer
      consistent once the stock drops to 2. */
  lemma StockEditKeepsStoredOnly(shop: Shop, p: ProductId, stock: nat)
    requires Stored(shop) && p in shop.catalog
    ensures Stored(shop.(catalog := shop.catalog[p := shop.catalog[p].(stock := stock)]))
    ensures var c := shop.catalog[p].(stock := 2);
      var s := Shop(map[0 := [CartItem(0, p, 3)]], map[p := c], 1);
      Stored(s) && !Consistent(s)
  {
    var c := shop.catalog[p].(stock := 2);
    var s := Shop(map[0 := [CartItem(0, p, 3)]], map[p := c], 1);
    var items := s.carts[0];
    assert items[0].quantity == 3 && s.catalog[items[0].product].stock == 2;
    assert !CartConsistent(items, s.catalog, s.nextItemId);
  }

  /** `add_item`, `remove_item`, `update_item_quantity` and `clear` keep a
      cart stored, whatever its quantities. */
  lemma CartOperationsKeepStored(items: Items, catalog: map<ProductId, Product>, nextItemId: nat, p: ProductId, q: int, stock: nat)
    requires CartStored(items, catalog, nextItemId)
    requires p in catalog
    ensures var r := AddItem(items, p, q, stock, nextItemId);
      r.Success? ==> CartStored(r.value, catalog, if IndexOf(items, p).None? then nextItemId + 1 else nextItemId)
    ensures CartStored(RemoveItem(items, p).items, catalog, nextItemId)
    ensures CartStored(UpdateItemQuantity(items, p, q, stock).items, catalog, nextItemId)
    ensures CartStored(Clear(items), catalog, nextItemId)
  {
    AddItemSpec(items, p, q, stock, nextItemId);
    RemoveItemSpec(items, p);
    UpdateItemQuantitySpec(items, p, q, stock);
    var r := AddItem(items, p, q, stock, nextItemId);
    if r.Success? {
      match IndexOf(items, p) {
        case None =>
          assert r.value == [CartItem(nextItemId, p, SaveQuantity(q, stock).value)] + items;
          assert forall i :: 1 <= i < |r.value| ==> r.value[i] == items[i - 1];
        case Some(i) =>
      }
    }
  }

  /** `add_item`, `remove_item`, `update_item_quantity` and `clear` keep a
      cart consistent when the stock they clamp to is the product's own. */
  lemma CartOperationsKeepConsistent(items: Items, catalog: map<ProductId, Product>, nextItemId: nat, p: ProductId, q: int)
    requires CartConsistent(items, catalog, nextItemId)
    requires p in catalog
    ensures var r := AddItem(items, p, q, catalog[p].stock, nextItemId);
      r.Success? ==> CartConsistent(r.value, catalog, if IndexOf(items, p).None? then nextItemId + 1 else nextItemId)
    ensures CartConsistent(RemoveItem(items, p).items, catalog, nextItemId)
    ensures CartConsistent(UpdateItemQuantity(items, p, q, catalog[p].stock).items, catalog, nextItemId)
    ensures CartConsistent(Clear(items), catalog, nextItemId)
  {
    var stock := catalog[p].stock;
    CartOperationsKeepStored(items, catalog, nextItemId, p, q, stock);
    var r := AddItem(items, p, q, stock, nextItemId);
    if r.Success? {
      match IndexOf(items, p) {
        case None =>
          assert r.value == [CartItem(nextItemId, p, SaveQuantity(q, stock).value)] + items;
          assert forall i :: 1 <= i < |r.value| ==> r.value[i] == items[i - 1];
        case Some(i) =>
      }
    }
  }

}

=== FILE: cart_views.dfy ===
/** The request handlers of cart/views.py as transitions of the stored
    state: each takes the shop and the request's fields and returns an
    outcome together with the shop afterwards. Responses, messages and
    redirects are not modelled; the outcome tag says which path was taken.
    The mutating handlers require a logged-in user, so they take a `UserId`. */
module CartViews {
  import opened Wrappers
  import opened Sequences
  import opened Products
  import opened CartModel

  /** `Ok`: the change was made. `NotFound`: no such product, item or
      cart. `Invalid`: the quantity field is not an integer. `Rejected`:
      the stock gate refused the quantity. `ServerError`: the database
      refused a negative quantity. */
  datatype Outcome = Ok | NotFound | Invalid | Rejected | ServerError

  /** The posted `quantity` field. */
  datatype QuantityField = Absent | Integer(n: int) | NotAnInteger

  datatype Step = Step(outcome: Outcome, shop: Shop)

  /** `int(request.POST.get('quantity', 1))`. */
  function ParseQuantity(field: QuantityField): (r: Option<int>)
    ensures r.None? <==> field == NotAnInteger
    ensures field == Absent ==> r == Some(1)
    ensures field.Integer? ==> r == Some(field.n)
  {
    match field
    case Absent => Some(1)
    case Integer(n) => Some(n)
    case NotAnInteger => None
  }

  /** The user's cart, empty if they have none yet (`get_or_create`). */
  function CartOf(shop: Shop, user: UserId): Items
  {
    if user in shop.carts then shop.carts[user] else []
  }

  /** `add_to_cart`: the quantity is read first, then the active product
      is looked up, then the requested quantity alone is compared with the
      stock. Only then is the user's cart fetched or created and the item
      added through `Cart.add_item`, whose save clamps the new total. */
  function AddToCart(shop: Shop, user: UserId, product: Option<ProductId>, field: QuantityField): Step
  {
    match ParseQuantity(field)
    case None => Step(Invalid, shop)
    case Some(q) =>
      if product.None? || product.value !in shop.catalog || !shop.catalog[product.value].isActive then
        Step(NotFound, shop)
      else
        var pid := product.value;
        var stock := shop.catalog[pid].stock;
        if q > stock then Step(Rejected, shop)
        else
          var items := CartOf(shop, user);
          var withCart := shop.(carts := shop.carts[user := items]);
          match AddItem(items, pid, q, stock, shop.nextItemId)
          case Failure(_) => Step(ServerError, withCart)
          case Success(r) =>
            var next := if IndexOf(items, pid).None? then shop.nextItemId + 1 else shop.nextItemId;
            Step(Ok, withCart.(carts := shop.carts[user := r], nextItemId := next))
  }

  /** The add handler's outcome is decided by the parse, the product
      lookup, the stock gate and the database's refusal of a negative
      total, in that order. Every refusal before the save leaves the shop
      as it was; a refused save leaves the user's cart created but
      unchanged. */
  lemma AddToCartOutcome(shop: Shop, user: UserId, product: Option<ProductId>, field: QuantityField)
    ensures var s := AddToCart(shop, user, product, field);
      var found := product.Some? && product.value in shop.catalog && shop.catalog[product.value].isActive;
      && (s.outcome == Invalid <==> field == NotAnInteger)
      && (s.outcome == NotFound <==> field != NotAnInteger && !found)
      && (s.outcome == Rejected <==>
            field != NotAnInteger && found && ParseQuantity(field).value > shop.catalog[product.value].stock)
      && (s.outcome == ServerError <==>
            field != NotAnInteger && found && ParseQuantity(field).value <= shop.catalog[product.value].stock
            && Held(CartOf(shop, user), product.value) + ParseQuantity(field).value < 0)
      && (s.outcome == Ok <==>
            field != NotAnInteger && found && ParseQuantity(field).value <= shop.catalog[product.value].stock
            && Held(CartOf(shop, user), product.value) + ParseQuantity(field).value >= 0)
      && (s.outcome in {Invalid, NotFound, Rejected} ==> s.shop == shop)
      && (s.outcome == ServerError ==> s.shop == shop.(carts := shop.carts[user := CartOf(shop, user)]))
  {
    if product.Some? {
      HeldIsRowQuantity(CartOf(shop, user), product.value);
    }
  }

  /** The stock gate looks only at the requested amount: an accepted add
      stores the old quantity plus the request, clamped to the stock, and
      touches no other product, no other user's cart and not the catalog.
      The old quantity may itself exceed a stock lowered since it was
      saved. */
  lemma AddToCartClamps(shop: Shop, user: UserId, pid: ProductId, field: QuantityField)
    requires Stored(shop)
    requires AddToCart(shop, user, Some(pid), field).outcome == Ok
    ensures var s := AddToCart(shop, user, Some(pid), field);
      var q := ParseQuantity(field).value;
      && q <= shop.catalog[pid].stock
      && Held(CartOf(shop, user), pid) + q >= 0
      && user in s.shop.carts
      && Quantities(s.shop.carts[user])
         == Quantities(CartOf(shop, user))[pid := Min(Held(CartOf(shop, user), pid) + q, shop.catalog[pid].stock)]
      && s.shop.carts - {user} == shop.carts - {user}
      && s.shop.catalog == shop.catalog
  {
    var items := CartOf(shop, user);
    assert UniqueProducts(items) by {
      if user in shop.carts { assert CartStored(items, shop.catalog, shop.nextItemId); }
    }
    AddItemSpec(items, pid, ParseQuantity(field).value, shop.catalog[pid].stock, shop.nextItemId);
  }

  /** Quantity defaults to 1 when the field is absent. */
  lemma AddToCartDefaultsToOne(shop: Shop, user: UserId, product: Option<ProductId>)
    ensures AddToCart(shop, user, product, Absent) == AddToCart(shop, user, product, Integer(1))
  {
  }

  /** Position of the row with primary key `id`. */
  function FindItem(items: Items, id: nat): (r: Option<nat>)
    ensures r.Some? ==> r.value < |items| && items[r.value].id == id
    ensures r.None? <==> forall i :: 0 <= i < |items| ==> items[i].id != id
  {
    IndexWhere(items, (it: CartItem) => it.id == id)
  }

  /** The row `id` of the requesting user's own cart, if there is one. */
  function OwnItem(shop: Shop, user: UserId, id: nat): Option<nat>
  {
    if user in shop.carts then FindItem(shop.carts[user], id) else None
  }

  /** `update_cart_item`: the item is looked up in the user's own cart
      first, then the quantity is read and compared with the stock; an
      accepted quantity is stored as given, even 0, through the save. */
  function UpdateCartItem(shop: Shop, user: UserId, id: nat, field: QuantityField): Step
    requires Stored(shop)
  {
    match OwnItem(shop, user, id)
    case None => Step(NotFound, shop)
    case Some(i) =>
      match ParseQuantity(field)
      case None => Step(Invalid, shop)
      case Some(q) =>
        var items := shop.carts[user];
        assert CartStored(items, shop.catalog, shop.nextItemId);
        var stock := shop.catalog[items[i].product].stock;
        if q > stock then Step(Rejected, shop)
        else match SaveQuantity(q, stock)
          case Failure(_) => Step(ServerError, shop)
          case Success(v) =>
            Step(Ok, shop.(carts := shop.carts[user := items[i := items[i].(quantity := v)]]))
  }

  /** The product of the user's own row `id`. */
  function OwnProduct(shop: Shop, user: UserId, id: nat): ProductId
    requires OwnItem(shop, user, id).Some?
  {
    shop.carts[user][OwnItem(shop, user, id).value].product
  }

  /** Which outcome the update handler gives: not-found for an item outside
      the user's cart, invalid for a non-integer field, rejected above the
      stock, a refused save below 0, and success for every quantity from 0
      to the stock. */
  lemma UpdateCartItemOutcome(shop: Shop, user: UserId, id: nat, field: QuantityField)
    requires Stored(shop)
    ensures var s := UpdateCartItem(shop, user, id, field);
      && (s.outcome == NotFound <==> OwnItem(shop, user, id).None?)
      && (s.outcome == Invalid <==> OwnItem(shop, user, id).Some? && field == NotAnInteger)
      && (OwnItem(shop, user, id).Some? ==> OwnProduct(shop, user, id) in shop.catalog)
      && (OwnItem(shop, user, id).Some? && field != NotAnInteger ==>
            var q := ParseQuantity(field).value;
            var stock := shop.catalog[OwnProduct(shop, user, id)].stock;
            && (s.outcome == Rejected <==> q > stock)
            && (s.outcome == ServerError <==> q < 0)
            && (s.outcome == Ok <==> 0 <= q <= stock))
  {
    if OwnItem(shop, user, id).Some? {
      assert CartStored(shop.carts[user], shop.catalog, shop.nextItemId);
    }
  }

  /** A successful update stores the requested quantity exactly; any other
      outcome changes nothing; other users' carts never change, and the
      shop stays stored (and consistent, if it was). */
  lemma UpdateCartItemSpec(shop: Shop, user: UserId, id: nat, field: QuantityField)
    requires Stored(shop)
    ensures var s := UpdateCartItem(shop, user, id, field);
      && (s.outcome != Ok ==> s.shop == shop)
      && s.shop.carts - {user} == shop.carts - {user}
      && s.shop.catalog == shop.catalog && s.shop.nextItemId == shop.nextItemId
      && Stored(s.shop)
      && (Consistent(shop) ==> Consistent(s.shop))
      && (s.outcome == Ok ==>
            var items := shop.carts[user];
            var p := OwnProduct(shop, user, id);
            && p in shop.catalog
            && 0 <= ParseQuantity(field).value <= shop.catalog[p].stock
            && Quantities(s.shop.carts[user]) == Quantities(items)[p := ParseQuantity(field).value]
            && RewritesOnly(items, s.shop.carts[user], p))
  {
    var s := UpdateCartItem(shop, user, id, field);
    if s.outcome == Ok {
      var items := shop.carts[user];
      assert CartStored(items, shop.catalog, shop.nextItemId);
      var i := OwnItem(shop, user, id).value;
      var q := ParseQuantity(field).value;
      QuantitiesSetAt(items, i, q);
      SetRowQuantity(items, i, q);
      var r := s.shop.carts[user];
      assert forall j :: 0 <= j < |r| ==> r[j].product == items[j].product && r[j].id == items[j].id;
      assert CartStored(r, shop.catalog, shop.nextItemId);
      if Consistent(shop) {
        assert CartConsistent(items, shop.catalog, shop.nextItemId);
        assert CartConsistent(r, shop.catalog, shop.nextItemId);
      }
    }
  }

  /** Unlike `Cart.update_item_quantity`, the handler keeps a row whose
      quantity is set to 0 instead of deleting it. */
  lemma UpdateToZeroKeepsRow(shop: Shop, user: UserId, id: nat)
    requires Stored(shop)
    requires OwnItem(shop, user, id).Some?
    ensures var s := UpdateCartItem(shop, user, id, Integer(0));
      var p := OwnProduct(shop, user, id);
      && p in shop.catalog
      && s.outcome == Ok
      && p in Quantities(s.shop.carts[user]) && Quantities(s.shop.carts[user])[p] == 0
      && p !in Quantities(UpdateItemQuantity(shop.carts[user], p, 0, shop.catalog[p].stock).items)
  {
    UpdateCartItemSpec(shop, user, id, Integer(0));
    UpdateCartItemOutcome(shop, user, id, Integer(0));
    var items := shop.carts[user];
    assert CartStored(items, shop.catalog, shop.nextItemId);
    var p := OwnProduct(shop, user, id);
    UpdateItemQuantitySpec(items, p, 0, shop.catalog[p].stock);
  }

  /** `remove_from_cart`: deletes the row only when it is in the
      requesting user's cart. */
  function RemoveFromCart(shop: Shop, user: UserId, id: nat): Step
  {
    match OwnItem(shop, user, id)
    case None => Step(NotFound, shop)
    case Some(i) => Step(Ok, shop.(carts := shop.carts[user := DeleteAt(shop.carts[user], i)]))
  }

  lemma RemoveFromCartSpec(shop: Shop, user: UserId, id: nat)
    requires Stored(shop)
    ensures var s := RemoveFromCart(shop, user, id);
      && (s.outcome == Ok <==> OwnItem(shop, user, id).Some?)
      && (s.outcome != Ok ==> s.shop == shop)
      && s.shop.carts - {user} == shop.carts - {user}
      && s.shop.catalog == shop.catalog && s.shop.nextItemId == shop.nextItemId
      && Stored(s.shop)
      && (Consistent(shop) ==> Consistent(s.shop))
      && (s.outcome == Ok ==>
            && Quantities(s.shop.carts[user]) == Quantities(shop.carts[user]) - {OwnProduct(shop, user, id)}
            && DeletesOnly(shop.carts[user], s.shop.carts[user], OwnProduct(shop, user, id)))
  {
    var s := RemoveFromCart(shop, user, id);
    if s.outcome == Ok {
      var items := shop.carts[user];
      assert CartStored(items, shop.catalog, shop.nextItemId);
      var i := OwnItem(shop, user, id).value;
      QuantitiesDeleteAt(items, i);
      DeleteAtKeepsUnique(items, i);
      DeleteAtFrame(items, i);
      assert CartStored(s.shop.carts[user], shop.catalog, shop.nextItemId);
      if Consistent(shop) {
        assert CartConsistent(items, shop.catalog, shop.nextItemId);
        assert CartConsistent(s.shop.carts[user], shop.catalog, shop.nextItemId);
      }
    }
  }

  /** `clear_cart`: empties the user's cart, or not-found without one. */
  function ClearCart(shop: Shop, user: UserId): (s: Step)
    ensures s.outcome == Ok <==> user in shop.carts
    ensures s.outcome == Ok ==> user in s.shop.carts && TotalItems(s.shop.carts[user]) == 0
    ensures s.shop.carts - {user} == shop.carts - {user}
    ensures s.shop.catalog == shop.catalog && s.shop.nextItemId == shop.nextItemId
    ensures s.outcome != Ok ==> s.shop == shop
  {
    if user in shop.carts then Step(Ok, shop.(carts := shop.carts[user := Clear(shop.carts[user])]))
    else Step(NotFound, shop)
  }

  /** `cart_count`: the number of items for a logged-in user with a cart,
      otherwise 0. */
  function CartCount(shop: Shop, user: Option<UserId>): (n: nat)
    ensures n == 0 <==>
      (user.None? || user.value !in shop.carts
       || forall i :: 0 <= i < |shop.carts[user.value]| ==> shop.carts[user.value][i].quantity == 0)
    ensures user.Some? && user.value in shop.carts ==> n == TotalItems(shop.carts[user.value])
  {
    if user.Some? && user.value in shop.carts then
      TotalItemsZeroIff(shop.carts[user.value]);
      TotalItems(shop.carts[user.value])
    else 0
  }

  /** The add handler keeps the shop stored, and consistent if it was,
      also when the database refuses the row after the cart was created. */
  lemma AddToCartKeepsStored(shop: Shop, user: UserId, product: Option<ProductId>, field: QuantityField)
    requires Stored(shop)
    ensures Stored(AddToCart(shop, user, product, field).shop)
  {
    var s := AddToCart(shop, user, product, field);
    if s.outcome in {Ok, ServerError} {
      var pid := product.value;
      var items := CartOf(shop, user);
      assert CartStored(items, shop.catalog, shop.nextItemId) by {
        if user in shop.carts { assert CartStored(shop.carts[user], shop.catalog, shop.nextItemId); }
      }
      CartOperationsKeepStored(items, shop.catalog, shop.nextItemId, pid, ParseQuantity(field).value, shop.catalog[pid].stock);
      assert CartStored(s.shop.carts[user], s.shop.catalog, s.shop.nextItemId) by {
        if s.outcome == ServerError {
          assert s.shop.carts[user] == items;
        }
      }
      forall u | u in s.shop.carts && u != user
        ensures CartStored(s.shop.carts[u], s.shop.catalog, s.shop.nextItemId)
      {
        assert CartStored(shop.carts[u], shop.catalog, shop.nextItemId);
        assert s.shop.carts[u] == shop.carts[u];
      }
    }
  }

  lemma AddToCartKeepsConsistent(shop: Shop, user: UserId, product: Option<ProductId>, field: QuantityField)
    requires Consistent(shop)
    ensures Consistent(AddToCart(shop, user, product, field).shop)
  {
    var s := AddToCart(shop, user, product, field);
    if s.outcome in {Ok, ServerError} {
      var pid := product.value;
      var items := CartOf(shop, user);
      assert CartConsistent(items, shop.catalog, shop.nextItemId) by {
        if user in shop.carts { assert CartConsistent(shop.carts[user], shop.catalog, shop.nextItemId); }
      }
      CartOperationsKeepConsistent(items, shop.catalog, shop.nextItemId, pid, ParseQuantity(field).value);
      assert CartConsistent(s.shop.carts[user], s.shop.catalog, s.shop.nextItemId) by {
        if s.outcome == ServerError {
          assert s.shop.carts[user] == items;
        }
      }
      forall u | u in s.shop.carts && u != user
        ensures CartConsistent(s.shop.carts[u], s.shop.catalog, s.shop.nextItemId)
      {
        assert CartConsistent(shop.carts[u], shop.catalog, shop.nextItemId);
        assert s.shop.carts[u] == shop.carts[u];
      }
    }
  }

  /** Clearing keeps the shop stored, and consistent if it was. */
  lemma ClearCartKeepsConsistent(shop: Shop, user: UserId)
    requires Stored(shop)
    ensures Stored(ClearCart(shop, user).shop)
    ensures Consistent(shop) ==> Consistent(ClearCart(shop, user).shop)
  {
    var s := ClearCart(shop, user);
    forall u | u in s.shop.carts
      ensures CartStored(s.shop.carts[u], s.shop.catalog, s.shop.nextItemId)
    {
      if u != user {
        assert CartStored(shop.carts[u], shop.catalog, shop.nextItemId);
      }
    }
    if Consistent(shop) {
      forall u | u in s.shop.carts
        ensures CartConsistent(s.shop.carts[u], s.shop.catalog, s.shop.nextItemId)
      {
        if u != user {
          assert CartConsistent(shop.carts[u], shop.catalog, shop.nextItemId);
        }
      }
    }
  }

}

=== FILE: catalog.dfy ===
/** The catalog queries of store/views.py as pure filters and sorts over
    the sequence of product rows: the product list with its optional
    search, category and price filters; the category page; the related
    products of a product page; and the search-suggestion endpoint.
    Pagination is left to the caller (pages of `PageSize`). */
module Catalog {
  import opened Wrappers
  import opened Sequences
  import opened Text
  import opened Products
  import opened Ordering

  const PageSize: nat := 12
  const RelatedLimit: nat := 4
  const SuggestionLimit: nat := 5
  const MinQueryLength: nat := 2

  /** Query parameters of the product list. `None` is an absent parameter;
      a price bound is `None` also when its parameter is the empty string,
      since only a non-empty string is truthy (so "0" is a real bound). */
  datatype ListQuery = ListQuery(
    search: Option<string>,
    category: Option<string>,
    minPrice: Option<real>,
    maxPrice: Option<real>,
    sort: Option<string>)

  /** A string parameter that is present and non-empty. */
  predicate Supplied(param: Option<string>)
  {
    param.Some? && param.value != ""
  }

  /** Keeps the products satisfying `f`, in their order. */
  function Filter(s: seq<Product>, f: Product -> bool): (r: seq<Product>)
    ensures forall x :: x in r <==> x in s && f(x)
    ensures multiset(r) <= multiset(s)
    ensures |r| <= |s|
  {
    if |s| == 0 then []
    else
      assert s == [s[0]] + s[1..];
      (if f(s[0]) then [s[0]] else []) + Filter(s[1..], f)
  }

  function Take(s: seq<Product>, n: nat): (r: seq<Product>)
    ensures |r| <= n
    ensures |s| <= n ==> r == s
    ensures forall x :: x in r ==> x in s
  {
    if |s| <= n then s else s[..n]
  }

  /** Cutting a newest-first sequence to `n` keeps the `n` newest rows:
      as many as there are, up to `n`, and none older than a row left out. */
  lemma TakeNewest(s: seq<Product>, n: nat)
    requires Sorted(Newest, s)
    ensures |Take(s, n)| == (if |s| <= n then |s| else n)
    ensures forall x, y :: x in Take(s, n) && y in s && y !in Take(s, n) ==> x.createdAt >= y.createdAt
  {
    var r := Take(s, n);
    if |s| > n {
      forall x, y | x in r && y in s && y !in r
        ensures x.createdAt >= y.createdAt
      {
        var i :| 0 <= i < |r| && r[i] == x;
        var j :| 0 <= j < |s| && s[j] == y;
        assert r[i] == s[i];
        assert InOrder(Newest, s[i], s[j]);
      }
    }
  }

  lemma TakeKeepsSorted(k: SortKey, s: seq<Product>, n: nat)
    requires Sorted(k, s)
    ensures Sorted(k, Take(s, n))
  {
    var r := Take(s, n);
    assert forall i :: 0 <= i < |r| ==> r[i] == s[i];
  }

  /** The search clause: the term occurs, ignoring case, in the name, the
      description or the category name. */
  predicate MatchesSearch(p: Product, term: string)
  {
    ContainsIgnoringCase(p.name, term)
      || ContainsIgnoringCase(p.description, term)
      || ContainsIgnoringCase(p.category.name, term)
  }

  /** The clauses of the product list, one per filter of the view. */
  function SearchClause(term: string): Product -> bool
  {
    (p: Product) => MatchesSearch(p, term)
  }

  function CategoryClause(slug: string): Product -> bool
  {
    (p: Product) => p.category.slug == slug
  }

  function MinPriceClause(lo: real): Product -> bool
  {
    (p: Product) => p.price >= lo
  }

  function MaxPriceClause(hi: real): Product -> bool
  {
    (p: Product) => p.price <= hi
  }

  /** The product list's filters, applied one after another as the view
      narrows its query set; an absent or empty parameter skips its step. */
  function SearchStep(s: seq<Product>, search: Option<string>): (r: seq<Product>)
    ensures forall x :: x in r <==> x in s && (Supplied(search) ==> MatchesSearch(x, search.value))
    ensures multiset(r) <= multiset(s)
  {
    if Supplied(search) then Filter(s, SearchClause(search.value)) else s
  }

  function CategoryStep(s: seq<Product>, category: Option<string>): (r: seq<Product>)
    ensures forall x :: x in r <==> x in s && (Supplied(category) ==> x.category.slug == category.value)
    ensures multiset(r) <= multiset(s)
  {
    if Supplied(category) then Filter(s, CategoryClause(category.value)) else s
  }

  function MinPriceStep(s: seq<Product>, minPrice: Option<real>): (r: seq<Product>)
    ensures forall x :: x in r <==> x in s && (minPrice.Some? ==> x.price >= minPrice.value)
    ensures multiset(r) <= multiset(s)
  {
    if minPrice.Some? then Filter(s, MinPriceClause(minPrice.value)) else s
  }

  function MaxPriceStep(s: seq<Product>, maxPrice: Option<real>): (r: seq<Product>)
    ensures forall x :: x in r <==> x in s && (maxPrice.Some? ==> x.price <= maxPrice.value)
    ensures multiset(r) <= multiset(s)
  {
    if maxPrice.Some? then Filter(s, MaxPriceClause(maxPrice.value)) else s
  }

  /** The view's query set: the active products, narrowed by each given
      parameter in turn. */
  function FilterProducts(products: seq<Product>, q: ListQuery): seq<Product>
  {
    var active := Filter(products, (p: Product) => p.isActive);
    MaxPriceStep(MinPriceStep(CategoryStep(SearchStep(active, q.search), q.category), q.minPrice), q.maxPrice)
  }

  /** The same filters read as one conjunction; an absent clause is true. */
  predicate ListMatch(p: Product, q: ListQuery)
  {
    && p.isActive
    && (Supplied(q.search) ==> MatchesSearch(p, q.search.value))
    && (Supplied(q.category) ==> p.category.slug == q.category.value)
    && (q.minPrice.Some? ==> p.price >= q.minPrice.value)
    && (q.maxPrice.Some? ==> p.price <= q.maxPrice.value)
  }

  /** Filters whose conditions agree on the rows keep the same rows. */
  lemma {:induction false} FilterSameCondition(s: seq<Product>, f: Product -> bool, g: Product -> bool)
    requires forall x :: x in s ==> f(x) == g(x)
    ensures Filter(s, f) == Filter(s, g)
  {
    if |s| > 0 {
      FilterSameCondition(s[1..], f, g);
    }
  }

  /** Filtering by `f` and then by `g` is filtering once by both. */
  lemma {:induction false} FilterTwice(s: seq<Product>, f: Product -> bool, g: Product -> bool, h: Product -> bool)
    requires forall x :: x in s ==> h(x) == (f(x) && g(x))
    ensures Filter(Filter(s, f), g) == Filter(s, h)
  {
    if |s| > 0 {
      var x, rest := s[0], s[1..];
      assert forall y :: y in rest ==> y in s;
      FilterTwice(rest, f, g, h);
      var t := Filter(rest, f);
      assert Filter(s, h) == (if h(x) then [x] else []) + Filter(rest, h);
      if f(x) {
        assert Filter(s, f) == [x] + t;
        assert ([x] + t)[1..] == t;
        assert Filter([x] + t, g) == (if g(x) then [x] else []) + Filter(t, g);
      } else {
        assert Filter(s, f) == t;
      }
    }
  }

  /** One step of the view narrows a filtered set to the filter by the
      conjunction of its condition and the step's clause, or by the same
      condition when the step is skipped. */
  lemma StepNarrows(products: seq<Product>, m: Product -> bool, m': Product -> bool, given: bool, c: Product -> bool)
    requires forall x :: m'(x) == (m(x) && (given ==> c(x)))
    ensures (if given then Filter(Filter(products, m), c) else Filter(products, m)) == Filter(products, m')
  {
    if given {
      FilterTwice(products, m, c, m');
    } else {
      FilterSameCondition(products, m, m');
    }
  }

  /** The view's successive filters select the same rows, in the same
      order, as the single conjunctive filter `ListMatch`. */
  lemma FilterStepsAreConjunction(products: seq<Product>, q: ListQuery)
    ensures FilterProducts(products, q) == Filter(products, (p: Product) => ListMatch(p, q))
  {
    var m0 := (p: Product) => p.isActive;
    var m1 := (p: Product) => m0(p) && (Supplied(q.search) ==> MatchesSearch(p, q.search.value));
    var m2 := (p: Product) => m1(p) && (Supplied(q.category) ==> p.category.slug == q.category.value);
    var m3 := (p: Product) => m2(p) && (q.minPrice.Some? ==> p.price >= q.minPrice.value);
    var m4 := (p: Product) => m3(p) && (q.maxPrice.Some? ==> p.price <= q.maxPrice.value);
    var s0 := Filter(products, m0);
    FilterSameCondition(products, (p: Product) => p.isActive, m0);
    var s1 := SearchStep(s0, q.search);
    StepNarrows(products, m0, m1, Supplied(q.search), SearchClause(if Supplied(q.search) then q.search.value else ""));
    assert s1 == Filter(products, m1);
    var s2 := CategoryStep(s1, q.category);
    StepNarrows(products, m1, m2, Supplied(q.category), CategoryClause(if Supplied(q.category) then q.category.value else ""));
    assert s2 == Filter(products, m2);
    var s3 := MinPriceStep(s2, q.minPrice);
    StepNarrows(products, m2, m3, q.minPrice.Some?, MinPriceClause(if q.minPrice.Some? then q.minPrice.value else 0.0));
    assert s3 == Filter(products, m3);
    var s4 := MaxPriceStep(s3, q.maxPrice);
    StepNarrows(products, m3, m4, q.maxPrice.Some?, MaxPriceClause(if q.maxPrice.Some? then q.maxPrice.value else 0.0));
    assert s4 == Filter(products, m4);
    FilterSameCondition(products, m4, (p: Product) => ListMatch(p, q));
  }

  /** `product_list` before pagination: the active products meeting every
      given clause (the view's successive filters, by
      `FilterStepsAreConjunction`), sorted by the `sort` parameter. */
  function ProductList(products: seq<Product>, q: ListQuery): seq<Product>
  {
    Sort(ListSortKey(q), Filter(products, (p: Product) => ListMatch(p, q)))
  }

  /** The sort key the listing uses: the `sort` parameter, `newest` when absent. */
  function ListSortKey(q: ListQuery): SortKey
  {
    SortKeyOf(if q.sort.Some? then q.sort.value else "newest")
  }

  /** The successive filters read as one conjunction: every listed product
      is a row of the catalog meeting every given clause ... */
  lemma ProductListSound(products: seq<Product>, q: ListQuery, x: Product)
    requires x in ProductList(products, q)
    ensures x in products && ListMatch(x, q)
  {
    SortKeepsMembers(ListSortKey(q), Filter(products, (p: Product) => ListMatch(p, q)));
  }

  /** ... and every such row is listed. */
  lemma ProductListComplete(products: seq<Product>, q: ListQuery, x: Product)
    requires x in products && ListMatch(x, q)
    ensures x in ProductList(products, q)
  {
    SortKeepsMembers(ListSortKey(q), Filter(products, (p: Product) => ListMatch(p, q)));
  }

  /** The filters only remove rows, and the listing puts the remaining rows,
      each as often as it was stored, in the order of the sort key. */
  lemma ProductListOrder(products: seq<Product>, q: ListQuery)
    ensures multiset(ProductList(products, q)) == multiset(FilterProducts(products, q))
    ensures multiset(ProductList(products, q)) <= multiset(products)
    ensures Sorted(ListSortKey(q), ProductList(products, q))
  {
    FilterStepsAreConjunction(products, q);
  }

  /** With no filter given, the list holds exactly the active products. */
  lemma ProductListUnfiltered(products: seq<Product>, q: ListQuery)
    requires !Supplied(q.search) && !Supplied(q.category) && q.minPrice.None? && q.maxPrice.None?
    ensures forall x :: x in ProductList(products, q) <==> x in products && x.isActive
  {
    forall x | x in ProductList(products, q) {
      ProductListSound(products, q, x);
    }
    forall x | x in products && x.isActive {
      ProductListComplete(products, q, x);
    }
  }

  function FindCategory(categories: seq<Category>, slug: string): (r: Option<Category>)
    ensures r.Some? ==> r.value in categories && r.value.slug == slug
    ensures r.None? <==> forall c :: c in categories ==> c.slug != slug
  {
    match IndexWhere(categories, (c: Category) => c.slug == slug)
    case None => None
    case Some(i) => Some(categories[i])
  }

  /** The rows `category_detail` lists: the category's active products. */
  function CategoryProducts(products: seq<Product>, c: Category): seq<Product>
  {
    Filter(products, (p: Product) => p.category.id == c.id && p.isActive)
  }

  /** `category_detail` before pagination: the category's active products
      in the order of the `sort` parameter, or not-found for an unknown
      slug. */
  function CategoryDetail(categories: seq<Category>, products: seq<Product>, slug: string, sort: Option<string>)
    : (r: Option<seq<Product>>)
    ensures r.None? <==> forall c :: c in categories ==> c.slug != slug
    ensures r.Some? ==>
      exists c :: (c in categories && c.slug == slug &&
        forall x :: x in r.value <==> x in products && x.isActive && x.category.id == c.id)
    ensures r.Some? ==> Sorted(SortKeyOf(if sort.Some? then sort.value else "newest"), r.value)
    ensures r.Some? ==> multiset(r.value) == multiset(CategoryProducts(products, FindCategory(categories, slug).value))
  {
    match FindCategory(categories, slug)
    case None => None
    case Some(c) =>
      var k := SortKeyOf(if sort.Some? then sort.value else "newest");
      var candidates := CategoryProducts(products, c);
      SortKeepsMembers(k, candidates);
      Some(Sort(k, candidates))
  }

  /** A product page: the active product with the slug, and up to four
      other active products of its category, newest first. */
  datatype Detail = Detail(product: Product, related: seq<Product>)

  function FindActiveBySlug(products: seq<Product>, slug: string): (r: Option<Product>)
    ensures r.Some? ==> r.value in products && r.value.slug == slug && r.value.isActive
    ensures r.None? <==> forall p :: p in products ==> !(p.slug == slug && p.isActive)
  {
    match IndexWhere(products, (p: Product) => p.slug == slug && p.isActive)
    case None => None
    case Some(i) => Some(products[i])
  }

  /** The candidates for related products. */
  function RelatedCandidates(products: seq<Product>, product: Product): seq<Product>
  {
    Filter(products, (x: Product) => x.category.id == product.category.id && x.isActive && x.id != product.id)
  }

  /** The related products shown for `product`: its first candidates,
      newest first. */
  function Related(products: seq<Product>, product: Product): seq<Product>
  {
    Take(Sort(Newest, RelatedCandidates(products, product)), RelatedLimit)
  }

  function ProductDetail(products: seq<Product>, slug: string): Option<Detail>
  {
    match FindActiveBySlug(products, slug)
    case None => None
    case Some(p) => Some(Detail(p, Related(products, p)))
  }

  lemma ProductDetailSpec(products: seq<Product>, slug: string)
    ensures var d := ProductDetail(products, slug);
      && (d.None? <==> forall p :: p in products ==> !(p.slug == slug && p.isActive))
      && (d.Some? ==>
            && d.value.product in products && d.value.product.slug == slug && d.value.product.isActive
            && d.value.related == Related(products, d.value.product)
            && |d.value.related| <= RelatedLimit
            && Sorted(Newest, d.value.related)
            && (forall x :: x in d.value.related ==>
                  x in products && x.isActive && x.id != d.value.product.id
                  && x.category.id == d.value.product.category.id)
            && (|RelatedCandidates(products, d.value.product)| <= RelatedLimit ==>
                  multiset(d.value.related) == multiset(RelatedCandidates(products, d.value.product))))
  {
    var d := ProductDetail(products, slug);
    if d.Some? {
      var p := d.value.product;
      var c := RelatedCandidates(products, p);
      var s := Sort(Newest, c);
      SortKeepsMembers(Newest, c);
      assert d.value.related == Take(s, RelatedLimit);
      TakeKeepsSorted(Newest, s, RelatedLimit);
    }
  }

  /** When there are more candidates than fit, the page shows the four
      newest: as many related products as there are candidates, up to four,
      and none older than a candidate left out. `ProductDetail` shows
      `Related` of the product it finds. */
  lemma RelatedAreNewest(products: seq<Product>, product: Product)
    ensures |Related(products, product)| ==
      (if |RelatedCandidates(products, product)| <= RelatedLimit then |RelatedCandidates(products, product)| else RelatedLimit)
    ensures forall x, y ::
      (x in Related(products, product) && y in RelatedCandidates(products, product) && y !in Related(products, product))
      ==> x.createdAt >= y.createdAt
  {
    var c := RelatedCandidates(products, product);
    SortKeepsMembers(Newest, c);
    TakeNewest(Sort(Newest, c), RelatedLimit);
  }

  /** `product_search_api`: nothing for a query shorter than two
      characters; otherwise at most five active products, newest first,
      whose name or description contains the query, ignoring case. */
  function SearchSuggestions(products: seq<Product>, query: string): seq<Product>
  {
    if |query| < MinQueryLength then [] else Suggested(products, query)
  }

  /** The suggestions for a long enough query: the first matches, newest
      first. */
  function Suggested(products: seq<Product>, query: string): seq<Product>
  {
    Take(Sort(Newest, SuggestionCandidates(products, query)), SuggestionLimit)
  }

  function SuggestionCandidates(products: seq<Product>, query: string): seq<Product>
  {
    Filter(products, (p: Product) => p.isActive
      && (ContainsIgnoringCase(p.name, query) || ContainsIgnoringCase(p.description, query)))
  }

  /** A short query gives nothing; a longer one gives `Suggested`: at most
      five suggestions, newest first. */
  lemma SuggestionsBounded(products: seq<Product>, query: string)
    ensures |query| < MinQueryLength ==> SearchSuggestions(products, query) == []
    ensures |query| >= MinQueryLength ==> SearchSuggestions(products, query) == Suggested(products, query)
    ensures |SearchSuggestions(products, query)| <= SuggestionLimit
    ensures Sorted(Newest, SearchSuggestions(products, query))
  {
    if |query| >= MinQueryLength {
      TakeKeepsSorted(Newest, Sort(Newest, SuggestionCandidates(products, query)), SuggestionLimit);
    }
  }

  /** Every suggestion is an active product whose name or description
      contains the query, ignoring case. */
  lemma SuggestionsMatch(products: seq<Product>, query: string, x: Product)
    requires x in SearchSuggestions(products, query)
    ensures x in products && x.isActive
    ensures ContainsIgnoringCase(x.name, query) || ContainsIgnoringCase(x.description, query)
  {
    SortKeepsMembers(Newest, SuggestionCandidates(products, query));
  }

  /** When at most five products match, all of them are suggested. */
  lemma SuggestionsComplete(products: seq<Product>, query: string)
    requires |query| >= MinQueryLength
    requires |SuggestionCandidates(products, query)| <= SuggestionLimit
    ensures multiset(SearchSuggestions(products, query)) == multiset(SuggestionCandidates(products, query))
  {
    SortKeepsMembers(Newest, SuggestionCandidates(products, query));
  }

  /** For a long enough query the suggestions are the five newest matches:
      as many as there are matches, up to five, and none older than a match
      left out. `SearchSuggestions` answers `Suggested` for any query of at
      least two characters. */
  lemma SuggestionsAreNewest(products: seq<Product>, query: string)
    ensures |Suggested(products, query)| ==
      (if |SuggestionCandidates(products, query)| <= SuggestionLimit then |SuggestionCandidates(products, query)| else SuggestionLimit)
    ensures forall x, y ::
      (x in Suggested(products, query) && y in SuggestionCandidates(products, query) && y !in Suggested(products, query))
      ==> x.createdAt >= y.createdAt
  {
    var c := SuggestionCandidates(products, query);
    SortKeepsMembers(Newest, c);
    TakeNewest(Sort(Newest, c), SuggestionLimit);
  }

  /** Unlike the product list, the suggestions never match on the category
      name alone. */
  lemma SuggestionsIgnoreCategoryName(products: seq<Product>, query: string, x: Product)
    requires !ContainsIgnoringCase(x.name, query) && !ContainsIgnoringCase(x.description, query)
    ensures x !in SearchSuggestions(products, query)
  {
    if x in SearchSuggestions(products, query) {
      SuggestionsMatch(products, query, x);
    }
  }

}

=== FILE: ordering.dfy ===
/** The orderings of store/views.py: the five sort keys of the product
    listings, and a sort that puts products in key order. The database
    leaves the order of ties open, so only sortedness and the permutation
    are promised. */
module Ordering {
  import opened Products
  import opened Text

  datatype SortKey = Newest | PriceLow | PriceHigh | Name | Discount

  /** The `sort` query parameter (default `newest`); anything unknown falls
      back to newest first. */
  function SortKeyOf(param: string): (k: SortKey)
    ensures k == PriceLow <==> param == "price_low"
    ensures k == PriceHigh <==> param == "price_high"
    ensures k == Name <==> param == "name"
    ensures k == Discount <==> param == "discount"
  {
    if param == "price_low" then PriceLow
    else if param == "price_high" then PriceHigh
    else if param == "name" then Name
    else if param == "discount" then Discount
    else Newest
  }

  /** `a` may come before `b` under key `k`. */
  predicate InOrder(k: SortKey, a: Product, b: Product)
  {
    match k
    case Newest => a.createdAt >= b.createdAt
    case PriceLow => a.price <= b.price
    case PriceHigh => a.price >= b.price
    case Name => LexLe(a.name, b.name)
    case Discount => a.discount >= b.discount
  }

  lemma InOrderTotal(k: SortKey, a: Product, b: Product)
    ensures InOrder(k, a, b) || InOrder(k, b, a)
  {
    if k == Name {
      LexLeTotal(a.name, b.name);
    }
  }

  lemma InOrderTransitive(k: SortKey, a: Product, b: Product, c: Product)
    requires InOrder(k, a, b) && InOrder(k, b, c)
    ensures InOrder(k, a, c)
  {
    if k == Name {
      LexLeTransitive(a.name, b.name, c.name);
    }
  }

  predicate Sorted(k: SortKey, s: seq<Product>)
  {
    forall i, j :: 0 <= i < j < |s| ==> InOrder(k, s[i], s[j])
  }

  /** Inserts `x` into a sorted sequence, before the first element it may
      precede. */
  function Insert(k: SortKey, x: Product, s: seq<Product>): (r: seq<Product>)
    requires Sorted(k, s)
    ensures Sorted(k, r)
    ensures multiset(r) == multiset(s) + multiset{x}
  {
    if |s| == 0 then [x]
    else if InOrder(k, x, s[0]) then
      assert forall j :: 0 < j < |s| ==> InOrder(k, s[0], s[j]);
      InsertFrontSorted(k, x, s);
      [x] + s
    else
      InOrderTotal(k, x, s[0]);
      var rest := Insert(k, x, s[1..]);
      assert s == [s[0]] + s[1..];
      assert forall y :: y in multiset(rest) ==> y == x || y in s[1..];
      HeadBeforeAll(k, s[0], rest, s[1..], x);
      [s[0]] + rest
  }

  lemma InsertFrontSorted(k: SortKey, x: Product, s: seq<Product>)
    requires Sorted(k, s) && |s| > 0 && InOrder(k, x, s[0])
    ensures Sorted(k, [x] + s)
  {
    var r := [x] + s;
    forall i, j | 0 <= i < j < |r| ensures InOrder(k, r[i], r[j]) {
      if i == 0 && j > 1 {
        InOrderTransitive(k, x, s[0], s[j - 1]);
      }
    }
  }

  lemma HeadBeforeAll(k: SortKey, h: Product, rest: seq<Product>, tail: seq<Product>, x: Product)
    requires Sorted(k, rest)
    requires InOrder(k, h, x)
    requires forall y :: y in tail ==> InOrder(k, h, y)
    requires forall y :: y in multiset(rest) ==> y == x || y in tail
    ensures Sorted(k, [h] + rest)
  {
    var r := [h] + rest;
    forall i, j | 0 <= i < j < |r| ensures InOrder(k, r[i], r[j]) {
      if i == 0 {
        assert r[j] in multiset(rest) by { assert r[j] == rest[j - 1]; }
      } else {
        assert r[i] == rest[i - 1] && r[j] == rest[j - 1];
      }
    }
  }

  /** Puts products in the order of key `k`, keeping every product. */
  function Sort(k: SortKey, s: seq<Product>): (r: seq<Product>)
    ensures Sorted(k, r)
    ensures multiset(r) == multiset(s)
  {
    if |s| == 0 then []
    else
      assert s == [s[0]] + s[1..];
      Insert(k, s[0], Sort(k, s[1..]))
  }

  /** The listings' order for each sort parameter value: ascending price,
      descending price, ascending name, descending discount, and otherwise
      newest first. */
  lemma SortOrderForParam(param: string, s: seq<Product>)
    ensures var r := Sort(SortKeyOf(param), s);
      && multiset(r) == multiset(s)
      && (param == "price_low" ==> forall i, j :: 0 <= i < j < |r| ==> r[i].price <= r[j].price)
      && (param == "price_high" ==> forall i, j :: 0 <= i < j < |r| ==> r[i].price >= r[j].price)
      && (param == "name" ==> forall i, j :: 0 <= i < j < |r| ==> LexLe(r[i].name, r[j].name))
      && (param == "discount" ==> forall i, j :: 0 <= i < j < |r| ==> r[i].discount >= r[j].discount)
      && (param !in {"price_low", "price_high", "name", "discount"} ==>
            forall i, j :: 0 <= i < j < |r| ==> r[i].createdAt >= r[j].createdAt)
  {
    var r := Sort(SortKeyOf(param), s);
    assert Sorted(SortKeyOf(param), r);
  }

  /** Sorting neither adds nor drops a product. */
  lemma SortKeepsMembers(k: SortKey, s: seq<Product>)
    ensures forall x :: x in Sort(k, s) <==> x in s
    ensures |Sort(k, s)| == |s|
  {
    var r := Sort(k, s);
    assert multiset(r) == multiset(s);
    assert |r| == |multiset(r)|;
    forall x ensures x in r <==> x in s {
      assert x in r <==> x in multiset(r);
      assert x in s <==> x in multiset(s);
    }
  }

}

=== FILE: product_images.dfy ===
/** Gallery images of store/models.py: the "at most one primary image per
    product" rule kept by `ProductImage.save`, and the order in which
    `Product.primary_image_file` picks a picture. Whether a file exists on
    storage is an uninterpreted predicate `onStorage`. */
module ProductImages {
  import opened Wrappers
  import opened Sequences
  import opened Products

  datatype ProductImage = ProductImage(
    id: nat,
    product: ProductId,
    file: string,
    isPrimary: bool,
    createdAt: int)

  /** No two rows of the same product are both flagged primary. */
  predicate AtMostOnePrimary(images: seq<ProductImage>)
  {
    forall i, j ::
      0 <= i < j < |images| && images[i].product == images[j].product && images[i].isPrimary
      ==> !images[j].isPrimary
  }

  /** The bulk update that unflags every primary image of `product`. */
  function ClearPrimary(images: seq<ProductImage>, product: ProductId): (r: seq<ProductImage>)
    ensures |r| == |images|
    ensures forall i :: 0 <= i < |images| && images[i].product != product ==> r[i] == images[i]
    ensures forall i :: 0 <= i < |images| && images[i].product == product ==> r[i] == images[i].(isPrimary := false)
  {
    seq(|images|, i requires 0 <= i < |images| =>
      if images[i].product == product then images[i].(isPrimary := false) else images[i])
  }

  /** Position of the first row with the given primary key. */
  function FindImage(images: seq<ProductImage>, id: nat): (r: Option<nat>)
    ensures r.Some? ==> r.value < |images| && images[r.value].id == id
    ensures r.None? <==> forall i :: 0 <= i < |images| ==> images[i].id != id
  {
    IndexWhere(images, (x: ProductImage) => x.id == id)
  }

  /** `ProductImage.save`: when the row is flagged primary, every primary
      image of its product is unflagged first; then the row is written,
      replacing the stored row with its primary key or appended as new. */
  function SaveImage(images: seq<ProductImage>, img: ProductImage): seq<ProductImage>
  {
    var cleared := if img.isPrimary then ClearPrimary(images, img.product) else images;
    match FindImage(cleared, img.id)
    case Some(k) => cleared[k := img]
    case None => cleared + [img]
  }

  /** No row of `product` is flagged primary. */
  predicate NoPrimaryOf(images: seq<ProductImage>, product: ProductId)
  {
    forall i :: 0 <= i < |images| && images[i].product == product ==> !images[i].isPrimary
  }

  /** Writing one row (in place or appended) keeps at most one primary per
      product, provided a primary row is written only where its product has
      no other primary. */
  lemma WriteKeepsAtMostOnePrimary(c: seq<ProductImage>, img: ProductImage, k: nat)
    requires AtMostOnePrimary(c)
    requires k <= |c|
    requires img.isPrimary ==> NoPrimaryOf(c, img.product)
    ensures AtMostOnePrimary(if k < |c| then c[k := img] else c + [img])
  {
    var r := if k < |c| then c[k := img] else c + [img];
    forall i, j | 0 <= i < j < |r| && r[i].product == r[j].product && r[i].isPrimary
      ensures !r[j].isPrimary
    {
      if i != k && j != k {
        assert r[i] == c[i] && r[j] == c[j];
      }
    }
  }

  lemma ClearPrimaryKeepsAtMostOnePrimary(images: seq<ProductImage>, product: ProductId)
    requires AtMostOnePrimary(images)
    ensures AtMostOnePrimary(ClearPrimary(images, product))
    ensures NoPrimaryOf(ClearPrimary(images, product), product)
  {
  }

  /** Every save keeps "at most one primary image per product". */
  lemma SaveImageKeepsAtMostOnePrimary(images: seq<ProductImage>, img: ProductImage)
    requires AtMostOnePrimary(images)
    ensures AtMostOnePrimary(SaveImage(images, img))
  {
    var cleared := if img.isPrimary then ClearPrimary(images, img.product) else images;
    if img.isPrimary {
      ClearPrimaryKeepsAtMostOnePrimary(images, img.product);
    }
    match FindImage(cleared, img.id) {
      case Some(k) => WriteKeepsAtMostOnePrimary(cleared, img, k);
      case None => WriteKeepsAtMostOnePrimary(cleared, img, |cleared|);
    }
  }

  /** Saving a primary image leaves it the only primary image of its
      product; the saved row is stored, in place of the row with its
      primary key or as a new row. */
  lemma SaveImageSolePrimary(images: seq<ProductImage>, img: ProductImage)
    ensures var r := SaveImage(images, img);
      && img in r
      && |r| == |images| + (if FindImage(images, img.id).Some? then 0 else 1)
      && (img.isPrimary ==>
            forall x :: x in r && x.product == img.product && x.isPrimary ==> x == img)
  {
    var cleared := if img.isPrimary then ClearPrimary(images, img.product) else images;
    FindImageIgnoresFlags(images, cleared, img.id);
    var r := SaveImage(images, img);
    match FindImage(cleared, img.id) {
      case Some(k) => assert r[k] == img;
      case None => assert r[|cleared|] == img;
    }
    if img.isPrimary {
      forall x | x in r && x.product == img.product && x.isPrimary
        ensures x == img
      {
        var i :| 0 <= i < |r| && r[i] == x;
      }
    }
  }

  /** A save touches no row of another product except the one it writes;
      a primary save changes the product's other rows only in their primary
      flag, and a non-primary save touches no row but its own. */
  lemma SaveImageLeavesOthers(images: seq<ProductImage>, img: ProductImage)
    ensures var r := SaveImage(images, img);
      && (forall i :: 0 <= i < |images| && images[i].id != img.id && images[i].product != img.product
            ==> r[i] == images[i])
      && (img.isPrimary ==>
            forall i :: 0 <= i < |images| && images[i].id != img.id && images[i].product == img.product
              ==> r[i] == images[i].(isPrimary := false))
      && (!img.isPrimary ==>
            forall i :: 0 <= i < |images| && images[i].id != img.id ==> r[i] == images[i])
  {
  }

  /** The primary-key lookup does not depend on the primary flags. */
  lemma {:induction false} FindImageIgnoresFlags(a: seq<ProductImage>, b: seq<ProductImage>, id: nat)
    requires |a| == |b|
    requires forall i :: 0 <= i < |a| ==> a[i].id == b[i].id
    ensures FindImage(a, id) == FindImage(b, id)
  {
    if |a| > 0 {
      FindImageIgnoresFlags(a[1..], b[1..], id);
    }
  }

  /** A file field that is set and whose file exists on storage. */
  predicate HasFile(file: string, onStorage: string -> bool)
  {
    file != "" && onStorage(file)
  }

  /** `product.images`: the rows of one product, in stored order. */
  function Gallery(images: seq<ProductImage>, product: ProductId): (r: seq<ProductImage>)
    ensures forall x :: x in r <==> x in images && x.product == product
  {
    if |images| == 0 then []
    else
      assert images == [images[0]] + images[1..];
      (if images[0].product == product then [images[0]] else []) + Gallery(images[1..], product)
  }

  /** `.filter(is_primary=True)`, in stored order. */
  function Primaries(images: seq<ProductImage>): (r: seq<ProductImage>)
    ensures forall x :: x in r <==> x in images && x.isPrimary
  {
    if |images| == 0 then []
    else
      assert images == [images[0]] + images[1..];
      (if images[0].isPrimary then [images[0]] else []) + Primaries(images[1..])
  }

  /** `a` sorts strictly before `b` under the gallery ordering
      (primary images first, then oldest first). */
  predicate Precedes(a: ProductImage, b: ProductImage)
  {
    (a.isPrimary && !b.isPrimary) || (a.isPrimary == b.isPrimary && a.createdAt < b.createdAt)
  }

  /** `.first()`: the row that nothing precedes; among ties the one stored
      earliest. */
  function First(images: seq<ProductImage>): (r: Option<ProductImage>)
    ensures r.Some? <==> |images| > 0
    ensures r.Some? ==> r.value in images && forall x :: x in images ==> !Precedes(x, r.value)
  {
    if |images| == 0 then None
    else
      assert images == [images[0]] + images[1..];
      match First(images[1..])
      case None => Some(images[0])
      case Some(best) => if Precedes(best, images[0]) then Some(best) else Some(images[0])
  }

  /** `Product.primary_image_file`: the product's own image if its file
      exists, else the first primary gallery image if its file exists,
      else the first gallery image if its file exists, else nothing. */
  function PrimaryImageFile(p: Product, images: seq<ProductImage>, onStorage: string -> bool): (r: Option<string>)
    ensures r.Some? ==> HasFile(r.value, onStorage)
    ensures HasFile(p.image, onStorage) ==> r == Some(p.image)
    ensures r.Some? && r.value != p.image ==>
      exists x :: x in images && x.product == p.id && x.file == r.value
  {
    var gallery := Gallery(images, p.id);
    var primary := First(Primaries(gallery));
    var first := First(gallery);
    if HasFile(p.image, onStorage) then Some(p.image)
    else if primary.Some? && HasFile(primary.value.file, onStorage) then Some(primary.value.file)
    else if first.Some? && HasFile(first.value.file, onStorage) then Some(first.value.file)
    else None
  }


  /** Under the invariant, two primary rows of one product are the same row. */
  lemma SamePrimary(images: seq<ProductImage>, x: ProductImage, y: ProductImage)
    requires AtMostOnePrimary(images)
    requires x in images && y in images
    requires x.product == y.product && x.isPrimary && y.isPrimary
    ensures x == y
  {
    var i :| 0 <= i < |images| && images[i] == x;
    var j :| 0 <= j < |images| && images[j] == y;
  }

  /** With a primary gallery image `x` and no usable own image, the picture
      is `x`'s file if it exists, and otherwise none at all: the first image
      in gallery order is `x` again, so the other gallery images are never
      consulted. */
  lemma PrimaryImageFileWithPrimary(p: Product, images: seq<ProductImage>, onStorage: string -> bool, x: ProductImage)
    requires AtMostOnePrimary(images)
    requires x in images && x.product == p.id && x.isPrimary
    requires !HasFile(p.image, onStorage)
    ensures PrimaryImageFile(p, images, onStorage) == (if HasFile(x.file, onStorage) then Some(x.file) else None)
  {
    var gallery := Gallery(images, p.id);
    assert x in Primaries(gallery);
    var primary := First(Primaries(gallery)).value;
    SamePrimary(images, x, primary);
    var first := First(gallery).value;
    assert !Precedes(x, first);
    SamePrimary(images, x, first);
  }

  /** Without any primary gallery image and no usable own image, the
      picture comes from an oldest gallery image, and there is none only
      when the gallery is empty or an oldest image (the one `.first()`
      picks) lacks its file; in particular a gallery whose images all have
      their files always yields one. */
  lemma PrimaryImageFileWithoutPrimary(p: Product, images: seq<ProductImage>, onStorage: string -> bool)
    requires NoPrimaryOf(images, p.id)
    requires !HasFile(p.image, onStorage)
    ensures var r := PrimaryImageFile(p, images, onStorage);
      && (r.Some? ==>
            exists y :: (y in images && y.product == p.id && y.file == r.value
              && forall z :: z in images && z.product == p.id ==> y.createdAt <= z.createdAt))
      && (r.None? && (exists y :: y in images && y.product == p.id) ==>
            exists y :: (y in images && y.product == p.id && !HasFile(y.file, onStorage)
              && forall z :: z in images && z.product == p.id ==> y.createdAt <= z.createdAt))
      && (((exists y :: y in images && y.product == p.id)
            && (forall y :: y in images && y.product == p.id ==> HasFile(y.file, onStorage)))
          ==> r.Some?)
  {
    var gallery := Gallery(images, p.id);
    var r := PrimaryImageFile(p, images, onStorage);
    if |gallery| > 0 {
      var y := First(gallery).value;
      forall z | z in images && z.product == p.id
        ensures y.createdAt <= z.createdAt
      {
        assert z in gallery && !Precedes(z, y);
        var i :| 0 <= i < |images| && images[i] == z;
        var j :| 0 <= j < |images| && images[j] == y;
      }
    }
  }

}

=== FILE: products.dfy ===
/** The catalog entities of store/models.py: categories and products, the
    discounted price, the stock test and the slug default applied on save. */
module Products {

  type ProductId = nat
  type CategoryId = nat

  datatype Category = Category(id: CategoryId, name: string, slug: string)

  /** One product row. `price` and `discount` are exact decimals (`real`);
      `stock` is a non-negative integer column; `image` is the stored file
      name, empty when the field is blank or null; `createdAt` is only an
      ordering key. */
  datatype Product = Product(
    id: ProductId,
    name: string,
    slug: string,
    description: string,
    price: real,
    discount: real,
    category: Category,
    stock: nat,
    image: string,
    isActive: bool,
    isFeatured: bool,
    createdAt: int)

  /** The field validators: a non-negative price and a discount percentage
      between 0 and 100. They run on form and admin input, not on every save. */
  predicate PricingValid(p: Product)
  {
    p.price >= 0.0 && 0.0 <= p.discount <= 100.0
  }

  /** The price after the percentage discount. A discount that is not
      positive leaves the price alone; otherwise the amount saved is
      `discount` percent of the price. */
  function DiscountedPrice(p: Product): (r: real)
    ensures p.discount <= 0.0 ==> r == p.price
    ensures p.discount > 0.0 ==> p.price - r == p.price * p.discount / 100.0
    ensures PricingValid(p) ==> 0.0 <= r <= p.price
    ensures PricingValid(p) && p.discount == 100.0 ==> r == 0.0
  {
    if p.discount > 0.0 then p.price * (1.0 - p.discount / 100.0) else p.price
  }

  predicate IsInStock(p: Product)
  {
    p.stock > 0
  }

  /** `Product.save`: an empty slug is filled from the name by `slugify`
      (a library call, taken as a parameter); nothing else changes. */
  function SaveSlug(p: Product, slugify: string -> string): (r: Product)
    ensures r.(slug := p.slug) == p
    ensures p.slug != "" ==> r.slug == p.slug
    ensures p.slug == "" ==> r.slug == slugify(p.name)
  {
    if p.slug == "" then p.(slug := slugify(p.name)) else p
  }

  /** Saving twice gives the same row as saving once, even when `slugify`
      yields an empty slug. */
  lemma SaveSlugIdempotent(p: Product, slugify: string -> string)
    ensures SaveSlug(SaveSlug(p, slugify), slugify) == SaveSlug(p, slugify)
  {
  }

}

=== FILE: search_form.dfy ===
/** `ProductSearchForm` of store/forms.py: the choice set of its `sort_by`
    field and the cross-field check of `clean` on the price bounds. The
    bounds are decimals after field cleaning; `None` is an empty field. */
module SearchForm {
  import opened Wrappers
  import opened Ordering

  const SortChoices: set<string> := {"newest", "price_low", "price_high", "name", "discount"}
  const InitialSort: string := "newest"

  datatype FormError = MinAboveMax | InvalidChoice

  datatype SearchData = SearchData(
    search: string,
    minPrice: Option<real>,
    maxPrice: Option<real>,
    sortBy: string)

  /** Python truthiness of a cleaned decimal: absent and zero are false. */
  predicate Truthy(bound: Option<real>)
  {
    bound.Some? && bound.value != 0.0
  }

  /** `clean`: refuses a minimum above the maximum when both are truthy,
      and otherwise hands the cleaned data back unchanged. */
  function Clean(data: SearchData): (r: Result<SearchData, FormError>)
    ensures r.Success? ==> r.value == data
    ensures r.Failure? ==> r.error == MinAboveMax
    ensures r.Failure? <==>
      data.minPrice.Some? && data.maxPrice.Some? && data.minPrice.value != 0.0 && data.maxPrice.value != 0.0
      && data.minPrice.value > data.maxPrice.value
  {
    if Truthy(data.minPrice) && Truthy(data.maxPrice) && data.minPrice.value > data.maxPrice.value then
      Failure(MinAboveMax)
    else
      Success(data)
  }

  /** The bound check never refuses a range in order or a missing bound,
      and a bound of 0 switches it off: `min = 5, max = 0` passes. */
  lemma CleanAccepts(data: SearchData)
    ensures data.minPrice.None? || data.maxPrice.None? ==> Clean(data).Success?
    ensures data.minPrice.Some? && data.maxPrice.Some? && data.minPrice.value <= data.maxPrice.value
      ==> Clean(data).Success?
    ensures data.maxPrice == Some(0.0) ==> Clean(data) == Success(data)
  {
  }

  /** The `sort_by` choice field: not required, so the empty value passes;
      any other value must be one of the five choices. */
  function CleanSortBy(value: string): (r: Result<string, FormError>)
    ensures r.Success? <==> value == "" || value in SortChoices
    ensures r.Success? ==> r.value == value
  {
    if value == "" || value in SortChoices then Success(value) else Failure(InvalidChoice)
  }

  /** Each accepted choice selects a different listing order, the initial
      one is newest first, and so is the empty value. */
  lemma SortChoicesMatchListing()
    ensures SortKeyOf(InitialSort) == Newest && SortKeyOf("") == Newest
    ensures forall a, b :: a in SortChoices && b in SortChoices && a != b ==> SortKeyOf(a) != SortKeyOf(b)
    ensures |SortChoices| == 5
  {
    assert SortChoices == {"newest"} + {"price_low", "price_high", "name", "discount"};
  }

}

=== FILE: sequences.dfy ===
/** Searching a sequence. */
module Sequences {
  import opened Wrappers

  /** Position of the first element satisfying `f`, if any. */
  function IndexWhere<T>(s: seq<T>, f: T -> bool): (r: Option<nat>)
    ensures r.Some? ==> r.value < |s| && f(s[r.value])
    ensures r.Some? ==> forall j :: 0 <= j < r.value ==> !f(s[j])
    ensures r.None? <==> forall i :: 0 <= i < |s| ==> !f(s[i])
  {
    if |s| == 0 then None
    else if f(s[0]) then Some(0)
    else match IndexWhere(s[1..], f)
      case None => None
      case Some(k) => Some(k + 1)
  }
}

=== FILE: text.dfy ===
/** String helpers behind the catalog queries: the case-insensitive
    substring test used by `icontains` lookups, and the order used by
    `order_by('name')`. Case folding is ASCII-only, as in SQLite's LIKE;
    names are ordered by code point. */
module Text {

  function LowerChar(c: char): char
  {
    if 'A' <= c <= 'Z' then (c as int - 'A' as int + 'a' as int) as char else c
  }

  function Lower(s: string): (r: string)
    ensures |r| == |s|
    ensures forall i :: 0 <= i < |s| ==> r[i] == LowerChar(s[i])
  {
    if |s| == 0 then "" else [LowerChar(s[0])] + Lower(s[1..])
  }

  /** `needle` occurs in `hay` starting at position `i`. */
  predicate OccursAt(hay: string, needle: string, i: int)
  {
    0 <= i && i + |needle| <= |hay| && hay[i..i + |needle|] == needle
  }

  /** Substring test, written as a scan from the left. */
  function Contains(hay: string, needle: string): bool
    decreases |hay|
  {
    needle <= hay || (|hay| > 0 && Contains(hay[1..], needle))
  }

  /** The scan finds `needle` exactly when it occurs at some position. */
  lemma {:induction false} ContainsIffOccurs(hay: string, needle: string)
    ensures Contains(hay, needle) <==> exists i :: OccursAt(hay, needle, i)
    decreases |hay|
  {
    if needle <= hay {
      assert OccursAt(hay, needle, 0);
    } else if |hay| > 0 {
      ContainsIffOccurs(hay[1..], needle);
      if Contains(hay[1..], needle) {
        var i :| OccursAt(hay[1..], needle, i);
        assert hay[1..][i..i + |needle|] == hay[i + 1..i + 1 + |needle|];
        assert OccursAt(hay, needle, i + 1);
      }
      if exists i :: OccursAt(hay, needle, i) {
        var i :| OccursAt(hay, needle, i);
        assert hay[1..][i - 1..i - 1 + |needle|] == hay[i..i + |needle|];
        assert OccursAt(hay[1..], needle, i - 1);
      }
    }
  }

  /** Django's `icontains`: substring test after case folding both sides. */
  predicate ContainsIgnoringCase(hay: string, needle: string)
  {
    Contains(Lower(hay), Lower(needle))
  }

  /** Lexicographic order on code points: `a` sorts no later than `b`. */
  predicate LexLe(a: string, b: string)
  {
    if |a| == 0 then true
    else if |b| == 0 then false
    else if a[0] != b[0] then a[0] < b[0]
    else LexLe(a[1..], b[1..])
  }

  lemma {:induction false} LexLeTotal(a: string, b: string)
    ensures LexLe(a, b) || LexLe(b, a)
  {
    if |a| > 0 && |b| > 0 && a[0] == b[0] {
      LexLeTotal(a[1..], b[1..]);
    }
  }

  lemma {:induction false} LexLeTransitive(a: string, b: string, c: string)
    requires LexLe(a, b) && LexLe(b, c)
    ensures LexLe(a, c)
  {
    if |a| > 0 && |b| > 0 && |c| > 0 && a[0] == b[0] && b[0] == c[0] {
      LexLeTransitive(a[1..], b[1..], c[1..]);
    }
  }

}

=== FILE: wrappers.dfy ===
/** Optional values and results with an error branch, used wherever the
    storefront either finds nothing or fails with a user-visible error. */
module Wrappers {

  datatype Option<+T> = None | Some(value: T)

  datatype Result<+T, +E> = Success(value: T) | Failure(error: E)

}
